=== FILE: README.md ===
# Report summarizer — a Dafny model of its core

The system summarizes reports. A Python class (`ReportSummarizer`) builds an
extractive summary: it splits the text into sentences, scores each one by its
TF-IDF row sum and keeps the best third, between 3 and 10 sentences, in
document order. If a BART model is loaded, the class can produce an
abstractive summary instead. A Flask application exposes the class through
`POST /api/summarize` (JSON text) and `POST /api/upload` (a multipart file),
and a browser controller drives both forms, a history table and the alert
list.

This project models the three pieces of sequential logic in that system:

- `summarizer.dfy` (module `Summarizer`) covers the class. It models
  construction with its fall-back when the model fails to load,
  `preprocess_text`, `extractive_summarize`, the fall-back inside
  `abstractive_summarize`, the dispatch in `summarize`, and `summarize_file`.
  Sentence splitting, TF-IDF scoring and the transformer pipeline are fields
  of an abstract `Nlp` record.
- `topk.dfy` (module `TopK`) covers `argsort()[-k:]` followed by `sorted`.
  The specification `IsTopK` accepts any valid top-k set, because `argsort`
  is not stable. `TopIndices` is one implementation of it, and ties go to the
  earliest position.
- `api.dfy` (module `Api`) covers the Flask handlers. It models the upload
  allow-list, the stored and summary file names, the order of the validation
  checks, the parameter defaults, and the shape of each response. Every
  handler returns the reply, the shared summarizer as it leaves it, and the
  files it wrote.
- `client.dfy` (module `Client`) covers the browser controller. Each handler
  is a pure transition over a record `Ui` that describes the page: views,
  navigation links, both buttons, the result panel, the file input, the
  history rows, the alerts, the requests sent and the downloads. A network
  outcome is a parameter of the transition that makes the call.
- `text.dfy` (module `Text`) holds the string rules of both languages.
  Python's `str.isspace` and JavaScript's `trim` use different whitespace
  sets, and Python's `int()` skips a third, narrower one: `str.isspace`
  without the ASCII separators U+001C-U+001F. The module also covers `rsplit('.', 1)`, `' '.join`, Python's
  `int()`, JavaScript's `parseInt`, and the UTF-16 length of a JS string.
  `json.dfy` holds decoded JSON values and `wrappers.dfy` holds
  `Option`/`Result`.

What the proofs establish, in brief:

- A blank text is never summarized.
- Up to three sentences are returned unchanged, and the original text is
  returned unstripped.
- Otherwise the kept count k satisfies 3 ≤ k ≤ 10 and k ≤ n.
- The kept positions are distinct, ascending, and no dropped sentence
  outscores a kept one.
- The summary is the kept sentences joined by single spaces.
- Without ties the choice of sentences is forced.
- `allowed_file` holds exactly when the lower-cased text after the last `.`
  is an allowed extension.
- A summary file name always ends in `_summary.txt`.
- Two uploads get different summary names when their ids differ, are of
  equal length and contain no `.`. The `uuid4` text meets these conditions:
  it is always 36 characters of hex digits and hyphens. Without them,
  distinctness fails: id `a` with sanitised name `b_c.txt` and id `a_b` with
  `c.txt` share `a_b_c_summary.txt`.
- The upload checks run in the source's order, and a 400 reply writes
  nothing.
- On the client, exactly one view is shown after any sequence of actions, and
  both buttons are back to enabled with their resting labels after every
  network exit path.
- Invalid input sends no request, and alerts and requests are only ever
  appended.
- After the history loads, each row button fetches exactly its own item.
- On the application's own instance, a non-blank text of at most three
  sentences comes back unchanged, whatever method the request names.
- An allowed upload whose length fields are absent or hold decimal counts of
  at most 4300 digits is saved, summarized and answered with 200.

The web application builds its summarizer with `method='extractive'`
(`Summarizer.AppSummarizer`), so the instance never gets a pipeline, and
neither handler ever loads one. `Summarizer.WithoutPipelineMethodIsIrrelevant`
shows what follows: a request for `'abstractive'` silently produces the
extractive summary. The `AttributeError` raised in `abstractive_summarize` is
caught, and the method falls back.

Two details of the browser code:

- Validation alerts (empty text, no file) and the health warnings use
  `showAlert`'s default type `'danger'`.
- If the history response parses but is not a list, the table is cleared at
  app.js:90 before `forEach` fails. Only a failed fetch or parse leaves the
  table untouched.

## Model

| member | source | states |
|---|---|---|
| Summarizer.Init | report_summarizer.py:22-53 | keeps both lengths. For `'abstractive'`, a model that loads keeps the method and installs its pipeline with no vectorizer, and a failed load turns the method into `'extractive'`. A vectorizer exists exactly when the final method is `'extractive'`. Any other method is stored as given, with no pipeline |
| Summarizer.FallbackExactlyOnLoadFailure | report_summarizer.py:36-48 | asking for `'abstractive'` ends as `'extractive'` exactly when the model fails to load, and with a pipeline exactly when it loads |
| Summarizer.AppSummarizerIsExtractive | app.py:21 | the application's instance is extractive, has a vectorizer and no pipeline, whatever the model loader would do |
| Summarizer.ModelName | report_summarizer.py:37-38 | a missing or empty model name becomes `facebook/bart-large-cnn`; a given non-empty name is kept |
| Summarizer.SentencesIgnoreSurroundingSpace | report_summarizer.py:64-71 | preprocessing a stripped text gives the same sentences, and fails exactly when it fails on the original |
| Summarizer.KeepCount | report_summarizer.py:95 | for n > 3 sentences: 3 ≤ k ≤ 10 and k ≤ n. k is 3 below 9 sentences, 10 from 33 on, and the floor of n/3 in between |
| Summarizer.ExtractiveSummarize | report_summarizer.py:83-104 | fails when sentence splitting raises. With at most 3 sentences (after stripping and splitting) it is the original, unstripped text. Otherwise it fails when the vectorizer is missing or raises. With a working vectorizer it always succeeds, and the summary is the join, with single spaces, of the sentences at some valid top-k set of positions (k = KeepCount), in document order |
| Summarizer.AbstractiveSummarize | report_summarizer.py:116-125 | the pipeline's text when a pipeline exists and the call succeeds. When the pipeline is missing or the call raises, exactly the extractive summary of the same text |
| Summarizer.Summarize | report_summarizer.py:137-143 | a blank text gives `""` and no summarizer runs. Method `'abstractive'` takes the abstractive path; any other value takes the extractive path |
| Summarizer.SummarizeFile | report_summarizer.py:155-161 | an unreadable file, or any exception while summarizing, gives `""`; otherwise the summary of the file's text |
| Summarizer.WithoutPipelineMethodIsIrrelevant | report_summarizer.py:116-125 | an instance with no pipeline produces the same result whatever method it is set to |
| Summarizer.PickedSentenceOccurs | report_summarizer.py:102 | each kept sentence appears verbatim in the joined summary |
| TopK.TopIndices | report_summarizer.py:98-99 | returns k distinct positions of the scores, in strictly ascending order, and no position left out scores above a kept one |
| TopK.UniqueWithoutTies | report_summarizer.py:98 | when all scores differ, any two valid top-k selections are equal, so a tie-break matters only on equal scores |
| Text.Trim | report_summarizer.py:66 | the result is an infix of the input with only whitespace around it; it does not start or end with whitespace; it is empty exactly when the input is all whitespace (Python's or JavaScript's set) |
| Text.TrimIdempotent | report_summarizer.py:66 | stripping an already stripped text changes nothing |
| Text.SplitLastRoundTrip | app.py:24 | splitting at the last `.` and rejoining with `.` gives the input back; the extension part contains no `.` |
| Text.SplitLastUnique | app.py:92 | any split around a `.` whose right part has no `.` is the split at the last `.` |
| Text.JoinContainsParts | report_summarizer.py:102 | every part of a `' '.join` occurs in the result at some offset |
| Text.JoinLength | report_summarizer.py:102 | a join is as long as its parts plus one separator between each pair |
| Text.JsParseInt | app.js:173-174 | `NaN` (None) exactly when no digit follows the leading whitespace and sign; after a `0x` or `0X` prefix the digits are hexadecimal, and `NaN` exactly when no hexadecimal digit follows the prefix |
| Text.HexPrefixRead | app.js:173-174 | `parseInt("0x1A")` is 26 and `parseInt("0x")` is `NaN` |
| Text.JsParseIntReadsLeadingCount | app.js:173-174 | after any leading whitespace, a count up to `Number.MAX_SAFE_INTEGER` with or without `-` is read as that count (negated for `-`), and anything after the digits that does not start with a digit is ignored (`"12px"` gives 12), except an `x` or `X` after a lone `0`, which opens the hexadecimal prefix |
| Text.PyInt | app.py:78-79 | succeeds exactly when the text, with the whitespace `int()` skips removed from both ends and the sign taken off, is made of digit groups (digits with single underscores between them) of at most 4300 digits, underscores not counted |
| Text.PyIntReadsPaddedCount | app.py:78-79 | a count of at most 4300 digits with whitespace that `int()` skips on either side, with or without `-`, is read as that count (negated for `-`) |
| Text.SeparatorIsNotIntSpace | app.py:78-79 | U+001C is whitespace to `strip` but not to `int()`: `"\x1c5"` strips to `"5"`, yet `int()` rejects it |
| Text.DecimalRoundTrip | app.py:78-79 | the decimal rendering of a count reads back as that count under the browser's `parseInt` up to `Number.MAX_SAFE_INTEGER`; under the server's `int()` it reads back exactly when it has at most 4300 digits, and is rejected otherwise |
| Text.Utf16Length | app.js:234 | a JS string length is the number of characters plus the number of characters outside the Basic Multilingual Plane, so it lies between the character count and twice that |
| Api.AllowedFile | app.py:23-24 | holds exactly when the name splits at its last `.` and the lower-cased extension is one of `txt`, `pdf`, `docx`, `md`. A name with no `.` is never allowed |
| Api.AllowedFileIgnoresCase | app.py:24 | lower-casing the whole name does not change the verdict |
| Api.UpperCaseNameAllowed | app.py:24 | `REPORT.TXT` is allowed |
| Api.LastExtensionDecides | app.py:24 | `notes.txt.exe` is refused: only the last extension counts |
| Api.SummaryFilename | app.py:92 | ends in `_summary.txt`. It is the stored name up to its last `.` plus the suffix, or the whole stored name plus the suffix when there is no `.` |
| Api.SummaryNamesDistinct | app.py:72-92 | two uploads whose ids differ, are of equal length and contain no `.` never share a summary file name |
| Api.SummarizeText | app.py:34-58 | with no `text` key: 400 "No text provided", the summarizer untouched and no write. Otherwise the request's method, max_length and min_length (defaults `'extractive'`, 150, 40) replace the shared settings, and the loaded model and vectorizer stay as they were. A string text gives 200 with `original_length = len(text)`, `summary_length = len(summary)` and the summary, or 500 when summarizing raised. Any other JSON value gives 200 with an empty summary and both lengths 0 when it is an empty list or object, and 500 otherwise (`strip` or `len` raises) |
| Api.ShortTextComesBack | app.py:34-58 | on a summarizer without a pipeline, such as the application's, a non-blank text of at most three sentences is answered 200 with the text itself as summary and both lengths equal to its length, whatever method the request names |
| Api.FormIntReadsDecimal | app.py:78-79 | a form field holding the decimal rendering of a count is read as that count, whatever the default, when it has at most 4300 digits, and rejected otherwise |
| Api.UploadFile | app.py:60-100 | the checks run in this order: no file part, then an empty file name, then a disallowed type, each a 400 that writes nothing. An accepted file is always saved first. Then a length field that `int()` rejects gives 500, with the settings untouched; otherwise the reply is 200, the request's settings (or the defaults) are installed, and the summary is written to and returned with `summaries/<SummaryFilename>`. The loaded model and vectorizer never change |
| Api.SaveAndSummarize | app.py:71-98 | the upload is always written first. A rejected length field gives 500 with that single write and the summarizer untouched. Otherwise: 200, the request's settings installed, and the summary written second and returned with its path |
| Api.DecimalFieldsUploadSucceeds | app.py:70-98 | an allowed upload whose length fields are absent or hold decimal counts of at most 4300 digits gets 200, writes the upload and then its summary under `summaries/`, and installs those counts (or 150 and 40) as the lengths |
| Client.NavHome | app.js:31-37 | home shown, history hidden, only home active; nothing else changes |
| Client.NavHistory | app.js:39-46 | history shown, home hidden, only history active, and exactly one history request |
| Client.LoadHistory | app.js:85-151 | one request. A failed fetch leaves the rows untouched and adds one alert. A non-list body clears the rows and adds one alert. An empty list gives the single placeholder row; otherwise one row per item, in order |
| Client.Table | app.js:90-117 | an empty list gives only the placeholder row; otherwise row i is built from item i, and both its buttons carry item i's id |
| Client.ViewSummary | app.js:120-131 | clicking view on an entry row sends one request for that row's id, then opens the viewer with the text or adds one alert |
| Client.DownloadSummary | app.js:135-146 | clicking download on an entry row sends one request for that row's id, then downloads the text under the id or adds one alert |
| Client.FinishText | app.js:178-197 | the button ends enabled and labelled `Summarize` on every outcome. An error payload adds one alert with its message verbatim and leaves the output, statistics and result card as they were. The views, links, history rows, viewer, requests, downloads, upload button and file input never change |
| Client.SummarizeText | app.js:154-198 | blank text only appends one `'danger'` alert (no request, button untouched). Otherwise exactly one POST with the trimmed text, the method and the `parseInt` lengths, and the button ends restored |
| Client.FinishUpload | app.js:226-251 | the button ends enabled and labelled `Upload & Summarize`. Success shows the result with the UTF-16 length, clears the file input and adds a `'success'` alert. Failure keeps the file. The views, links, history rows, viewer, requests, downloads and summarize button never change |
| Client.Upload | app.js:201-252 | no file only appends one alert. Otherwise exactly one multipart request with the file name and the raw field strings, and the button ends restored. The input is cleared exactly on success. With a file chosen the result is exactly the start of the upload followed by `FinishUpload` on the outcome, so success shows the result and adds the `'success'` alert |
| Client.ResultNameCarriesTime | app.js:267-270 | the result's file name is `summary_`, then decimal digits whose value is the clock reading, then `.txt` |
| Client.ResultNamesDistinct | app.js:267-270 | downloads of the result at different instants never share a file name |
| Client.CheckHealth | app.js:69-82 | one request. No alert when the status is `healthy`. Otherwise exactly one alert: the unreachable message when the fetch or parse failed, the unhealthy message for any other status |
| Client.RunKeepsValid | app.js:194-197 | over any sequence of actions, exactly one view stays shown with its link active, and both buttons stay enabled with their resting labels |
| Client.ViewsNeverBothShown | app.js:31-46 | from the loaded page, the two views are never shown together |
| Client.RunAppends | app.js:49-57 | alerts and requests only grow by appending, and each action adds at most one request |
| Client.RowButtonsFetchTheirItem | app.js:119-146 | once the history has loaded, whatever the page held before, the view and download buttons of row i each send one request for item i's id, and open or save that item's text under the id |

## Left out

- Sentence splitting (NLTK `sent_tokenize`), TF-IDF scoring (scikit-learn,
  floating point), the BART pipeline and model loading are opaque fields of
  `Summarizer.Nlp` and a `loads` parameter. Scores are reals.
- Files and the network are left out. `file.save`, the summary write and
  reading the file back are modelled only as `Api.Write` records and an
  optional file text. `os.listdir`, `send_from_directory`, Flask routing,
  CORS, `uuid4` (a parameter) and `secure_filename` (a parameter) are not
  modelled.
- The routes `/`, `/api/health`, `/api/summaries`, `/api/summaries/<name>`
  and `/api/files/<name>` are left out. Each only serves a file, lists a
  directory or returns a constant.
- The history contract is modelled separately on each side. The server lists
  bare file names (app.py:110-116), while the client reads objects with `id`,
  `original_filename`, `summary` and `created_at`.
- NLTK resource download and logging at import time are left out. A failed
  download shows up later: `sent_tokenize` raises, which the model keeps as
  the `TokenizerFailed` fault, and `stopwords.words` raises inside
  `__init__`. The constructor failing is not modelled: `Summarizer.Init`
  always returns an instance.
- A `/api/summarize` body that is not a JSON object is left out: the model
  takes the decoded object.
- A multipart part without any file name is left out.
- Text.AsciiLower: lower-cases ASCII letters only, where Python's `lower()`
  is Unicode-wide. The allow-list verdict is still the same. Only two
  non-ASCII characters lower-case to text containing an ASCII letter.
  U+212A becomes `k`, and no allowed extension contains `k`. U+0130 becomes
  `i` followed by U+0307, which stays non-ASCII, so no allowed extension
  can result.
- Text.PyInt: does not accept non-ASCII decimal digits (such as U+0661
  ARABIC-INDIC DIGIT ONE), which `int()` reads.
- Api.UploadFile: inherits the Text.PyInt gap. A length field written in
  non-ASCII decimal digits gets 500 in the model, where the source reads it
  and answers 200.
- Api.SaveAndSummarize: inherits the same non-ASCII digit gap as
  Api.UploadFile.
- Text.JsParseInt: does not round values above `Number.MAX_SAFE_INTEGER` to
  the nearest double. It returns the exact integer; the result is a
  floating-point number in the source, which is out of scope.
- Client.SummarizeText: inherits the Text.JsParseInt gap. A length field
  above `Number.MAX_SAFE_INTEGER` is sent as the exact count, where
  `parseInt` sends the nearest double.
- Text.JsParseIntReadsLeadingCount: promises nothing above
  `Number.MAX_SAFE_INTEGER`, where `parseInt` rounds.
- Text.DecimalRoundTrip: its `parseInt` half promises nothing above
  `Number.MAX_SAFE_INTEGER`, for the same reason.
- Client.FinishText: a reply whose `error` field is the empty string is
  falsy in JavaScript and would take the success path (app.js:180). The
  model's `ErrorPayload` always takes the error path.
- Client.FinishUpload: the same holds for the upload reply's `error` field
  (app.js:228). The model's `ErrorPayload("")` adds an alert and keeps the
  output. `Client.Upload` inherits this.
- DOM and browser effects are left out: markup, the modal widget,
  `scrollIntoView`, the copy button (`execCommand('copy')` and its 2 s label
  revert), the 5 s / 300 ms alert dismissal, and the anchor element used for
  downloads.
- The compression percentage in the text statistics line uses floating-point
  `Math.round`, so it is left out.
- Two requests in flight at once, and the race between them on the shared
  result panel, are left out. Each action runs its network phase to the end
  before the next action.
- The page markup (`index.html`) is not part of this model. `Client.Loaded`
  assumes the home view shown and active and both buttons idle.

=== FILE: api.dfy ===
/** The Flask request handlers: the upload allow-list, the stored and
    summary file names, and the validation, defaults and response shaping of
    `POST /api/summarize` and `POST /api/upload`. */
module Api {
  import opened Wrappers
  import opened Text
  import opened Json
  import S = Summarizer

  const AllowedExtensions: set<string> := {"txt", "pdf", "docx", "md"}
  const UploadFolder: string := "uploads"
  const SummaryFolder: string := "summaries"
  const SummarySuffix: string := "_summary.txt"

  /** The body of a response. `Crash` is the 500 page Flask serves for an
      exception the handler does not catch. */
  datatype Body =
    | ErrorBody(error: string)
    | TextSummary(originalLength: nat, summaryLength: nat, summary: string)
    | FileSummary(summary: string, summaryPath: string)
    | Crash

  datatype Reply = Reply(status: nat, body: Body)

  /** Files the handler writes: the upload itself, then its summary. */
  datatype Write = SavedUpload(path: string) | SavedSummary(path: string, text: string)

  /** A handler's reply, the shared summarizer as the handler leaves it, and
      the files it wrote, in order. */
  datatype Handled = Handled(reply: Reply, summarizer: S.Summarizer, writes: seq<Write>)

  /** One part of a multipart request: the client's file name and the text of
      the file once saved (`None` when it cannot be read back as UTF-8). */
  datatype FilePart = FilePart(filename: string, content: Option<string>)

  /** `allowed_file`: the name has a `.` and the text after the last one,
      lower-cased, is an allowed extension. */
  function AllowedFile(name: string): (ok: bool)
    ensures ok <==> exists before, ext :: IsLastSplit(name, '.', before, ext)
                                          && AsciiLower(ext) in AllowedExtensions
    ensures '.' !in name ==> !ok
  {
    if '.' in name then
      var ext := AfterLast(name, '.');
      SplitLastRoundTrip(name, '.');
      assert IsLastSplit(name, '.', BeforeLast(name, '.'), ext);
      ExtensionOfAnySplit(name);
      AsciiLower(ext) in AllowedExtensions
    else
      NoSplitWithoutDot(name);
      false
  }

  lemma ExtensionOfAnySplit(name: string)
    ensures forall before, ext :: IsLastSplit(name, '.', before, ext) ==> ext == AfterLast(name, '.')
  {
    forall before, ext | IsLastSplit(name, '.', before, ext)
      ensures ext == AfterLast(name, '.')
    {
      SplitLastUnique(name, '.', before, ext);
    }
  }

  lemma NoSplitWithoutDot(name: string)
    requires '.' !in name
    ensures forall before, ext :: !IsLastSplit(name, '.', before, ext)
  {
    forall before, ext | IsLastSplit(name, '.', before, ext)
      ensures false
    {
    }
  }

  /** The extension check ignores case: lower-casing the whole name first
      changes nothing. */
  lemma {:induction false} AllowedFileIgnoresCase(name: string)
    ensures AllowedFile(AsciiLower(name)) == AllowedFile(name)
  {
    var low := AsciiLower(name);
    if '.' in name {
      var before, ext := BeforeLast(name, '.'), AfterLast(name, '.');
      SplitLastRoundTrip(name, '.');
      LowerSplit(name, before, ext);
      SplitLastUnique(low, '.', AsciiLower(before), AsciiLower(ext));
      LowerIdempotent(ext);
    } else {
      assert '.' !in low;
    }
  }

  lemma LowerSplit(name: string, before: string, ext: string)
    requires IsLastSplit(name, '.', before, ext)
    ensures IsLastSplit(AsciiLower(name), '.', AsciiLower(before), AsciiLower(ext))
  {
    assert AsciiLower(name) == AsciiLower(before) + "." + AsciiLower(ext);
  }

  lemma LowerIdempotent(s: string)
    ensures AsciiLower(AsciiLower(s)) == AsciiLower(s)
  {
  }

  /** `REPORT.TXT` is accepted. */
  lemma UpperCaseNameAllowed()
    ensures AllowedFile("REPORT.TXT")
  {
    var name := "REPORT.TXT";
    assert name == "REPORT" + ['.'] + "TXT";
    SplitLastUnique(name, '.', "REPORT", "TXT");
    assert AfterLast(name, '.') == "TXT";
    assert AsciiLower("TXT") == "txt";
  }

  /** Only the last extension counts: `notes.txt.exe` is refused. */
  lemma LastExtensionDecides()
    ensures !AllowedFile("notes.txt.exe")
  {
    var name := "notes.txt.exe";
    assert name == "notes.txt" + ['.'] + "exe";
    SplitLastUnique(name, '.', "notes.txt", "exe");
    assert AfterLast(name, '.') == "exe";
    assert AsciiLower("exe") == "exe";
    assert "exe" !in AllowedExtensions;
  }

  /** The name an upload is stored under: a fresh identifier, `_`, then the
      sanitised client name (`secure_filename`, taken as a parameter). */
  function StoredName(id: string, secure: string -> string, filename: string): string {
    id + "_" + secure(filename)
  }

  /** The summary file of a stored upload: the stored name without its last
      extension, then `_summary.txt`; a name with no `.` is kept whole. */
  function SummaryFilename(stored: string): (r: string)
    ensures |r| >= |SummarySuffix| && r[|r| - |SummarySuffix|..] == SummarySuffix
    ensures '.' !in stored ==> r == stored + SummarySuffix
    ensures forall before, ext :: IsLastSplit(stored, '.', before, ext) ==> r == before + SummarySuffix
  {
    ExtensionOfAnySplit(stored);
    forall before, ext | IsLastSplit(stored, '.', before, ext)
      ensures BeforeLast(stored, '.') == before
    {
      SplitLastUnique(stored, '.', before, ext);
    }
    BeforeLast(stored, '.') + SummarySuffix
  }

  /** With identifiers free of `.`, the summary name starts with the
      upload's identifier, so uploads with different identifiers of one
      length never share a summary file. */
  lemma {:induction false} SummaryNamesDistinct(id1: string, id2: string, secure: string -> string,
                                                name1: string, name2: string)
    requires '.' !in id1 && '.' !in id2 && |id1| == |id2| && id1 != id2
    ensures SummaryFilename(StoredName(id1, secure, name1)) != SummaryFilename(StoredName(id2, secure, name2))
  {
    SummaryNameStartsWithId(id1, secure, name1);
    SummaryNameStartsWithId(id2, secure, name2);
    var r1 := SummaryFilename(StoredName(id1, secure, name1));
    var r2 := SummaryFilename(StoredName(id2, secure, name2));
  }

  lemma {:induction false} SummaryNameStartsWithId(id: string, secure: string -> string, name: string)
    requires '.' !in id
    ensures var r := SummaryFilename(StoredName(id, secure, name));
            |r| > |id| && r[..|id| + 1] == id + "_"
  {
    var stored := StoredName(id, secure, name);
    var prefix := id + "_";
    assert stored == prefix + secure(name);
    assert '.' !in prefix;
    var before := BeforeLast(stored, '.');
    match LastIndexOf(stored, '.')
    case None =>
    case Some(i) =>
      assert stored[i] == '.';
      assert i >= |prefix|;
      assert before == stored[..i];
      assert before[..|prefix|] == prefix;
  }

  // --------------------------------------------------------------- handlers

  /** The settings a request installs: its own values, the defaults where
      a key is missing. */
  function WithSettings(s: S.Summarizer, mode: Json, maxLength: Json, minLength: Json): (t: S.Summarizer)
    ensures t.mode == mode && t.maxLength == maxLength && t.minLength == minLength
    ensures t.pipeline == s.pipeline && t.hasVectorizer == s.hasVectorizer
  {
    s.(mode := mode, maxLength := maxLength, minLength := minLength)
  }

  /** `POST /api/summarize` on the decoded JSON object `req`. */
  function SummarizeText(req: map<string, Json>, s: S.Summarizer, nlp: S.Nlp): (h: Handled)
    ensures h.writes == []
    // settings change, the loaded model and vectorizer never do
    ensures h.summarizer.pipeline == s.pipeline && h.summarizer.hasVectorizer == s.hasVectorizer
    // no text: 400, and the summarizer is neither called nor touched
    ensures "text" !in req ==> h == Handled(Reply(400, ErrorBody("No text provided")), s, [])
    // otherwise the request's settings, or the defaults, replace the shared ones
    ensures "text" in req ==> h.summarizer == WithSettings(s,
              Get(req, "method", JString("extractive")), Get(req, "max_length", JInt(150)),
              Get(req, "min_length", JInt(40)))
    // a string text: the summary and both lengths, or a crash if summarizing raised
    ensures "text" in req && req["text"].JString? ==>
              var text := req["text"].s;
              match S.Summarize(h.summarizer, nlp, text)
              case Success(summary) => h.reply == Reply(200, TextSummary(|text|, |summary|, summary))
              case Failure(_) => h.reply == Reply(500, Crash)
    // any other text: an empty list or object is falsy, so the summary is
    // "" and `len` gives 0; every other value raises, in `strip` or in `len`
    ensures "text" in req && !req["text"].JString? ==>
              h.reply == (if req["text"] == JArray([]) || req["text"] == JObject(map[])
                          then Reply(200, TextSummary(0, 0, "")) else Reply(500, Crash))
    ensures h.reply.body.TextSummary? ==>
              (h.reply.status == 200 && h.reply.body.summaryLength == |h.reply.body.summary|)
  {
    if "text" !in req then Handled(Reply(400, ErrorBody("No text provided")), s, [])
    else
      var t := WithSettings(s, Get(req, "method", JString("extractive")),
                            Get(req, "max_length", JInt(150)), Get(req, "min_length", JInt(40)));
      var text := req["text"];
      if text.JString? then
        match S.Summarize(t, nlp, text.s)
        case Success(summary) => Handled(Reply(200, TextSummary(|text.s|, |summary|, summary)), t, [])
        case Failure(_) => Handled(Reply(500, Crash), t, [])
      // `summarize` returns "" for a falsy value and raises on `strip` for
      // any other; then `len(text)` raises unless the value is a container.
      else if !Falsy(text) then Handled(Reply(500, Crash), t, [])
      else
        match PyLen(text)
        case Some(n) => Handled(Reply(200, TextSummary(n, 0, "")), t, [])
        case None => Handled(Reply(500, Crash), t, [])
  }

  /** A form field read with `int(request.form.get(key, default))`;
      `None` when `int()` raises. */
  function FormInt(form: map<string, string>, key: string, default: int): (v: Option<int>)
    ensures key !in form ==> v == Some(default)
    ensures key in form ==> v == PyInt(form[key])
  {
    if key in form then PyInt(form[key]) else Some(default)
  }

  /** A field holding the decimal rendering of a count is read as that
      count, whatever the default, unless it has more digits than `int()`
      accepts. */
  lemma {:induction false} FormIntReadsDecimal(form: map<string, string>, key: string, n: nat, default: int)
    ensures FormInt(form[key := NatToString(n)], key, default)
            == if |NatToString(n)| <= IntMaxStrDigits then Some(n) else None
  {
    PyReadsDecimal(n);
  }

  /** The upload passed the three checks: a `file` part with a non-empty,
      allowed name. */
  predicate Accepted(files: map<string, FilePart>) {
    "file" in files && files["file"].filename != "" && AllowedFile(files["file"].filename)
  }

  /** `POST /api/upload` with multipart parts `files` and fields `form`;
      `id` is the fresh `uuid4` text and `secure` stands for `secure_filename`. */
  function UploadFile(files: map<string, FilePart>, form: map<string, string>, s: S.Summarizer,
                      nlp: S.Nlp, id: string, secure: string -> string): (h: Handled)
    // the three checks, in this order, each a 400 that writes nothing
    ensures "file" !in files ==> h == Handled(Reply(400, ErrorBody("No file part")), s, [])
    ensures "file" in files && files["file"].filename == ""
            ==> h == Handled(Reply(400, ErrorBody("No selected file")), s, [])
    ensures "file" in files && files["file"].filename != "" && !AllowedFile(files["file"].filename)
            ==> h == Handled(Reply(400, ErrorBody("File type not allowed")), s, [])
    // an accepted file is saved first, under its stored name
    ensures Accepted(files) ==>
              h.writes != [] && h.writes[0] == SavedUpload(UploadFolder + "/" + StoredName(id, secure, files["file"].filename))
    // then either length field that `int()` rejects is a crash, and otherwise the reply is 200
    ensures Accepted(files) && (FormInt(form, "max_length", 150).None? || FormInt(form, "min_length", 40).None?)
            ==> h.reply == Reply(500, Crash)
    ensures Accepted(files) && FormInt(form, "max_length", 150).Some? && FormInt(form, "min_length", 40).Some?
            ==> h.reply.status == 200
    ensures h.reply.status == 400 <==> h.writes == []
    ensures h.reply.status == 400 ==> h.reply.body.ErrorBody?
    // a length that `int()` rejects crashes after the save, settings untouched
    ensures h.reply.status == 500 ==> h.summarizer == s && |h.writes| == 1
    // success: request settings (or defaults) installed, summary written and returned
    ensures h.reply.status == 200 ==>
              && Accepted(files)
              && FormInt(form, "max_length", 150).Some? && FormInt(form, "min_length", 40).Some?
              && h.summarizer == WithSettings(s, JString(if "method" in form then form["method"] else "extractive"),
                                              JInt(FormInt(form, "max_length", 150).value),
                                              JInt(FormInt(form, "min_length", 40).value))
              && var stored := StoredName(id, secure, files["file"].filename);
                 var summary := S.SummarizeFile(h.summarizer, nlp, files["file"].content);
                 var path := SummaryFolder + "/" + SummaryFilename(stored);
                 && h.reply == Reply(200, FileSummary(summary, path))
                 && h.writes == [SavedUpload(UploadFolder + "/" + stored), SavedSummary(path, summary)]
    ensures h.summarizer.pipeline == s.pipeline && h.summarizer.hasVectorizer == s.hasVectorizer
  {
    if "file" !in files then Handled(Reply(400, ErrorBody("No file part")), s, [])
    else
      var file := files["file"];
      if file.filename == "" then Handled(Reply(400, ErrorBody("No selected file")), s, [])
      else if !AllowedFile(file.filename) then Handled(Reply(400, ErrorBody("File type not allowed")), s, [])
      else SaveAndSummarize(file, form, s, nlp, id, secure)
  }

  /** The body of `upload_file` once the file is accepted: save it, read the
      settings, summarize, write the summary. */
  function SaveAndSummarize(file: FilePart, form: map<string, string>, s: S.Summarizer,
                            nlp: S.Nlp, id: string, secure: string -> string): (h: Handled)
    ensures h.writes != [] && h.writes[0] == SavedUpload(UploadFolder + "/" + StoredName(id, secure, file.filename))
    ensures h.reply.status == 200 || h.reply.status == 500
    ensures FormInt(form, "max_length", 150).None? || FormInt(form, "min_length", 40).None?
            ==> h == Handled(Reply(500, Crash), s, [SavedUpload(UploadFolder + "/" + StoredName(id, secure, file.filename))])
    ensures FormInt(form, "max_length", 150).Some? && FormInt(form, "min_length", 40).Some? ==>
              && h.summarizer == WithSettings(s, JString(if "method" in form then form["method"] else "extractive"),
                                              JInt(FormInt(form, "max_length", 150).value),
                                              JInt(FormInt(form, "min_length", 40).value))
              && var stored := StoredName(id, secure, file.filename);
                 var summary := S.SummarizeFile(h.summarizer, nlp, file.content);
                 var path := SummaryFolder + "/" + SummaryFilename(stored);
                 && h.reply == Reply(200, FileSummary(summary, path))
                 && h.writes == [SavedUpload(UploadFolder + "/" + stored), SavedSummary(path, summary)]
    ensures h.summarizer.pipeline == s.pipeline && h.summarizer.hasVectorizer == s.hasVectorizer
  {
    var stored := StoredName(id, secure, file.filename);
    var saved := [SavedUpload(UploadFolder + "/" + stored)];
    var mode := JString(if "method" in form then form["method"] else "extractive");
    var maxLength := FormInt(form, "max_length", 150);
    var minLength := FormInt(form, "min_length", 40);
    if maxLength.None? || minLength.None? then Handled(Reply(500, Crash), s, saved)
    else
      var t := WithSettings(s, mode, JInt(maxLength.value), JInt(minLength.value));
      var summary := S.SummarizeFile(t, nlp, file.content);
      var path := SummaryFolder + "/" + SummaryFilename(stored);
      Handled(Reply(200, FileSummary(summary, path)), t, saved + [SavedSummary(path, summary)])
  }

  // ------------------------------------------------------------ end to end

  /** A summarizer without a pipeline (the application's instance, and every
      state the two handlers leave it in) answers a non-blank text of at most
      three sentences with the text itself, whatever method the request
      names: both lengths are the text's length. */
  lemma {:induction false} ShortTextComesBack(req: map<string, Json>, s: S.Summarizer, nlp: S.Nlp)
    requires s.pipeline.None?
    requires "text" in req && req["text"].JString?
    requires !AllSpace(Python, req["text"].s)
    requires S.Tokenizes(nlp, req["text"].s) && |S.Sentences(nlp, req["text"].s)| <= 3
    ensures var text := req["text"].s;
            SummarizeText(req, s, nlp).reply == Reply(200, TextSummary(|text|, |text|, text))
  {
    var text := req["text"].s;
    var t := SummarizeText(req, s, nlp).summarizer;
    S.WithoutPipelineMethodIsIrrelevant(t, nlp, text, t.mode);
    assert t.(mode := t.mode) == t;
    assert S.ExtractiveSummarize(t.(mode := S.Extractive), nlp, text) == Success(text);
  }

  /** An allowed upload whose length fields are absent or hold decimal
      counts of at most `IntMaxStrDigits` digits is summarized: 200, the upload and then its summary written,
      the summary under `summaries/` with a name ending in `_summary.txt`,
      and the counts (or the defaults) installed as the new lengths. */
  lemma {:induction false} DecimalFieldsUploadSucceeds(files: map<string, FilePart>, form: map<string, string>,
                                                        s: S.Summarizer, nlp: S.Nlp, id: string,
                                                        secure: string -> string, maxLength: nat, minLength: nat)
    requires Accepted(files)
    requires "max_length" in form ==> form["max_length"] == NatToString(maxLength)
    requires "min_length" in form ==> form["min_length"] == NatToString(minLength)
    requires |NatToString(maxLength)| <= IntMaxStrDigits && |NatToString(minLength)| <= IntMaxStrDigits
    ensures var h := UploadFile(files, form, s, nlp, id, secure);
            && h.reply.status == 200
            && |h.writes| == 2 && h.writes[1].SavedSummary?
            && h.writes[1].path == SummaryFolder + "/" + SummaryFilename(StoredName(id, secure, files["file"].filename))
            && h.summarizer.maxLength == JInt(if "max_length" in form then maxLength else 150)
            && h.summarizer.minLength == JInt(if "min_length" in form then minLength else 40)
  {
    assert FormInt(form, "max_length", 150) == Some(if "max_length" in form then maxLength else 150) by {
      PyReadsDecimal(maxLength);
    }
    assert FormInt(form, "min_length", 40) == Some(if "min_length" in form then minLength else 40) by {
      PyReadsDecimal(minLength);
    }
    var h := UploadFile(files, form, s, nlp, id, secure);
    assert h.reply.status == 200;
  }
}

=== FILE: client.dfy ===
/** The browser controller: navigation between the two views, the alert
    list, the text and upload summarize actions, the history table and its
    per-row actions, as pure transitions over an abstract page state. Each
    network call's outcome is a parameter of the transition that makes it. */
module Client {
  import opened Wrappers
  import opened Text

  const Danger: string := "danger"
  const SuccessKind: string := "success"
  const SummarizeLabel: string := "Summarize"
  const UploadLabel: string := "Upload & Summarize"
  const BusyLabel: string := "Processing..."

  const EmptyTextMessage: string := "Please enter some text to summarize."
  const SummarizeFailedMessage: string := "Failed to summarize text. Please try again."
  const NoFileMessage: string := "Please select a file to upload."
  const UploadFailedMessage: string := "Failed to upload and summarize file. Please try again."
  const UploadDoneMessage: string := "File uploaded and summarized successfully."
  const HistoryFailedMessage: string := "Failed to load summary history."
  const ViewFailedMessage: string := "Failed to load summary."
  const DownloadFailedMessage: string := "Failed to download summary."
  const UnhealthyMessage: string := "API is not responding properly. Some features may not work."
  const UnreachableMessage: string := "Cannot connect to the backend API. Please make sure the server is running."

  datatype Button = Button(enabled: bool, caption: string)

  datatype Alert = Alert(message: string, kind: string)

  /** A history entry as the client reads it from `GET /summaries`. */
  datatype HistoryItem = HistoryItem(id: string, originalFilename: string, summary: string, createdAt: string)

  /** A row of the history table: the "no summaries found" placeholder, or
      an entry whose view and download buttons carry an id each. */
  datatype Row =
    | Placeholder
    | EntryRow(filename: string, preview: string, createdAt: string, viewId: string, downloadId: string)

  /** The statistics line under a result (the compression percentage of
      the text case is not modelled). */
  datatype Stats = NoStats | TextStats(originalLength: int, summaryLength: int) | FileStats(fileName: string, length: nat)

  /** Requests sent to the server. A length is `None` when `parseInt` gave
      `NaN`, which `JSON.stringify` writes as `null`. The summarization
      method travels as `mode` (`method` is a Dafny keyword). */
  datatype Request =
    | GetHealth
    | GetSummaries
    | GetSummary(id: string)
    | PostSummarize(text: string, mode: string, maxLength: Option<int>, minLength: Option<int>)
    | PostUpload(fileName: string, uploadMode: string, maxField: string, minField: string)

  datatype Download = Download(content: string, filename: string)

  /** The page. `chosenFile` is the file input's selection; `modal` the text
      of the summary viewer once it has been opened. */
  datatype Ui = Ui(
    homeVisible: bool, historyVisible: bool, homeActive: bool, historyActive: bool,
    summarizeButton: Button, uploadButton: Button,
    resultVisible: bool, output: string, stats: Stats,
    chosenFile: Option<string>,
    rows: seq<Row>, modal: Option<string>,
    alerts: seq<Alert>, requests: seq<Request>, downloads: seq<Download>)

  /** How a JSON request ended: the fetch or the JSON parse failed, the body
      carried an `error` message, or it carried data. */
  datatype Net<T> = TransportFailure | ErrorPayload(message: string) | Ok(data: T)

  datatype TextReply = TextReply(summary: string, originalLength: int, summaryLength: int)

  /** The form fields, as the strings the inputs hold. */
  datatype TextForm = TextForm(text: string, mode: string, maxLength: string, minLength: string)
  datatype UploadForm = UploadForm(mode: string, maxLength: string, minLength: string)

  /** The page as loaded, before any script ran (the markup is not part of
      this model: the home view shown and active, both buttons idle). */
  const Loaded: Ui := Ui(
    homeVisible := true, historyVisible := false, homeActive := true, historyActive := false,
    summarizeButton := Button(true, SummarizeLabel), uploadButton := Button(true, UploadLabel),
    resultVisible := false, output := "", stats := NoStats, chosenFile := None,
    rows := [], modal := None, alerts := [], requests := [], downloads := [])

  // ---------------------------------------------------------- invariants

  /** Exactly one view is shown and only its navigation link is active. */
  predicate ViewsConsistent(ui: Ui) {
    && ui.homeVisible != ui.historyVisible
    && ui.homeActive == ui.homeVisible
    && ui.historyActive == ui.historyVisible
  }

  /** Both action buttons are enabled and carry their resting labels. */
  predicate ButtonsIdle(ui: Ui) {
    ui.summarizeButton == Button(true, SummarizeLabel) && ui.uploadButton == Button(true, UploadLabel)
  }

  predicate Valid(ui: Ui) {
    ViewsConsistent(ui) && ButtonsIdle(ui)
  }

  /** `a` and `b` agree on the views and their links, the history rows, the
      summary viewer, the requests sent and the downloads: the parts of the
      page the end of a summarize action leaves alone. */
  predicate SamePage(a: Ui, b: Ui) {
    && a.homeVisible == b.homeVisible && a.historyVisible == b.historyVisible
    && a.homeActive == b.homeActive && a.historyActive == b.historyActive
    && a.rows == b.rows && a.modal == b.modal && a.requests == b.requests && a.downloads == b.downloads
  }

  /** `showAlert(message, type = 'danger')`: appends one alert. */
  function ShowAlert(ui: Ui, message: string, kind: string := Danger): (r: Ui)
    ensures r.alerts == ui.alerts + [Alert(message, kind)]
    ensures r.(alerts := ui.alerts) == ui
  {
    ui.(alerts := ui.alerts + [Alert(message, kind)])
  }

  /** The alert text for a request that did not produce data: the server's
      `error` message, or the action's own text when the fetch or the parse
      threw. */
  function FailureMessage<T>(outcome: Net<T>, fallback: string): (m: string)
    requires !outcome.Ok?
    ensures outcome.TransportFailure? ==> m == fallback
    ensures outcome.ErrorPayload? ==> m == outcome.message
  {
    if outcome.TransportFailure? then fallback else outcome.message
  }

  // ---------------------------------------------------------- navigation

  /** The home link: show home, hide history, mark only home active. */
  function NavHome(ui: Ui): (r: Ui)
    ensures Valid(ui) ==> Valid(r)
    ensures ui.alerts <= r.alerts && ui.requests <= r.requests && |r.requests| <= |ui.requests| + 1
    ensures ViewsConsistent(r) && r.homeVisible && !r.historyVisible
    ensures r.(homeVisible := ui.homeVisible, historyVisible := ui.historyVisible,
               homeActive := ui.homeActive, historyActive := ui.historyActive) == ui
  {
    ui.(homeVisible := true, historyVisible := false, homeActive := true, historyActive := false)
  }

  /** The history link: show history, hide home, mark only history active,
      then load the history. */
  function NavHistory(ui: Ui, outcome: Net<seq<HistoryItem>>): (r: Ui)
    ensures Valid(ui) ==> Valid(r)
    ensures ui.alerts <= r.alerts && ui.requests <= r.requests && |r.requests| <= |ui.requests| + 1
    ensures ViewsConsistent(r) && r.historyVisible && !r.homeVisible
    ensures r.requests == ui.requests + [GetSummaries]
    ensures r == LoadHistory(ui.(homeVisible := false, historyVisible := true,
                                 homeActive := false, historyActive := true), outcome)
  {
    var shown := ui.(homeVisible := false, historyVisible := true, homeActive := false, historyActive := true);
    LoadHistory(shown, outcome)
  }

  // ------------------------------------------------------------- history

  /** The table row for one entry: both buttons carry the entry's id. */
  function RowOf(item: HistoryItem): (row: Row)
    ensures row.EntryRow? && row.viewId == item.id && row.downloadId == item.id
    ensures row.filename == item.originalFilename && row.preview == item.summary && row.createdAt == item.createdAt
  {
    EntryRow(item.originalFilename, item.summary, item.createdAt, item.id, item.id)
  }

  /** The rows for one entry each, in the list's order. */
  function EntryRows(items: seq<HistoryItem>): (rows: seq<Row>)
    ensures |rows| == |items|
    ensures forall i :: 0 <= i < |items| ==> rows[i] == RowOf(items[i])
  {
    if |items| == 0 then [] else [RowOf(items[0])] + EntryRows(items[1..])
  }

  /** The rebuilt table body: the placeholder alone for an empty list. */
  function Table(items: seq<HistoryItem>): (rows: seq<Row>)
    ensures items == [] ==> rows == [Placeholder]
    ensures items != [] ==> |rows| == |items| && forall i :: 0 <= i < |items| ==> rows[i] == RowOf(items[i])
  {
    if |items| == 0 then [Placeholder] else EntryRows(items)
  }

  /** `loadSummaryHistory`: one `GET /summaries`. A failed fetch or parse
      leaves the table alone; a parsed body that is not a list (here an
      error object) clears the table and then fails on `forEach`. */
  function LoadHistory(ui: Ui, outcome: Net<seq<HistoryItem>>): (r: Ui)
    ensures r.requests == ui.requests + [GetSummaries]
    ensures outcome.TransportFailure? ==> r.rows == ui.rows
    ensures outcome.ErrorPayload? ==> r.rows == []
    ensures !outcome.Ok? ==> r.alerts == ui.alerts + [Alert(HistoryFailedMessage, Danger)]
    ensures outcome.Ok? ==> r.alerts == ui.alerts
    ensures outcome.Ok? ==> r.rows == Table(outcome.data)
    ensures r.(rows := ui.rows, alerts := ui.alerts, requests := ui.requests) == ui
  {
    var sent := ui.(requests := ui.requests + [GetSummaries]);
    match outcome
    case TransportFailure => ShowAlert(sent, HistoryFailedMessage)
    case ErrorPayload(_) => ShowAlert(sent.(rows := []), HistoryFailedMessage)
    case Ok(items) => sent.(rows := Table(items))
  }

  /** The view button of row `i`: fetch that entry's text and open the
      viewer with it. A row without buttons cannot be clicked. */
  function ViewSummary(ui: Ui, i: nat, fetched: Option<string>): (r: Ui)
    ensures Valid(ui) ==> Valid(r)
    ensures ui.alerts <= r.alerts && ui.requests <= r.requests && |r.requests| <= |ui.requests| + 1
    ensures i < |ui.rows| && ui.rows[i].EntryRow? ==>
              && r.requests == ui.requests + [GetSummary(ui.rows[i].viewId)]
              && (fetched.Some? ==> r.modal == fetched && r.alerts == ui.alerts)
              && (fetched.None? ==> r.modal == ui.modal && r.alerts == ui.alerts + [Alert(ViewFailedMessage, Danger)])
    ensures !(i < |ui.rows| && ui.rows[i].EntryRow?) ==> r == ui
    ensures r.(modal := ui.modal, alerts := ui.alerts, requests := ui.requests) == ui
  {
    if i < |ui.rows| && ui.rows[i].EntryRow? then
      var sent := ui.(requests := ui.requests + [GetSummary(ui.rows[i].viewId)]);
      match fetched
      case Some(text) => sent.(modal := Some(text))
      case None => ShowAlert(sent, ViewFailedMessage)
    else ui
  }

  /** The download button of row `i`: fetch that entry's text and save it
      under the entry's id. */
  function DownloadSummary(ui: Ui, i: nat, fetched: Option<string>): (r: Ui)
    ensures Valid(ui) ==> Valid(r)
    ensures ui.alerts <= r.alerts && ui.requests <= r.requests && |r.requests| <= |ui.requests| + 1
    ensures i < |ui.rows| && ui.rows[i].EntryRow? ==>
              && r.requests == ui.requests + [GetSummary(ui.rows[i].downloadId)]
              && (fetched.Some? ==> r.downloads == ui.downloads + [Download(fetched.value, ui.rows[i].downloadId)]
                                    && r.alerts == ui.alerts)
              && (fetched.None? ==> r.downloads == ui.downloads
                                    && r.alerts == ui.alerts + [Alert(DownloadFailedMessage, Danger)])
    ensures !(i < |ui.rows| && ui.rows[i].EntryRow?) ==> r == ui
    ensures r.(downloads := ui.downloads, alerts := ui.alerts, requests := ui.requests) == ui
  {
    if i < |ui.rows| && ui.rows[i].EntryRow? then
      var id := ui.rows[i].downloadId;
      var sent := ui.(requests := ui.requests + [GetSummary(id)]);
      match fetched
      case Some(text) => sent.(downloads := ui.downloads + [Download(text, id)])
      case None => ShowAlert(sent, DownloadFailedMessage)
    else ui
  }

  // -------------------------------------------------------- summarize text

  /** The request the text form sends for an already trimmed text. */
  function TextRequest(text: string, form: TextForm): Request {
    PostSummarize(text, form.mode, JsParseInt(form.maxLength), JsParseInt(form.minLength))
  }

  /** The start of the network phase: button disabled and busy, request sent. */
  function StartText(ui: Ui, request: Request): (r: Ui)
    ensures r.summarizeButton == Button(false, BusyLabel)
    ensures r.requests == ui.requests + [request]
    ensures r.(summarizeButton := ui.summarizeButton, requests := ui.requests) == ui
  {
    ui.(summarizeButton := Button(false, BusyLabel), requests := ui.requests + [request])
  }

  /** The end of the network phase; the `finally` block restores the button
      whatever happened. */
  function FinishText(ui: Ui, outcome: Net<TextReply>): (r: Ui)
    ensures r.summarizeButton == Button(true, SummarizeLabel)
    ensures SamePage(ui, r) && r.uploadButton == ui.uploadButton && r.chosenFile == ui.chosenFile
    ensures ViewsConsistent(ui) ==> ViewsConsistent(r)
    ensures ui.alerts <= r.alerts
    ensures outcome.TransportFailure? ==> r.alerts == ui.alerts + [Alert(SummarizeFailedMessage, Danger)]
    ensures outcome.ErrorPayload? ==> r.alerts == ui.alerts + [Alert(outcome.message, Danger)]
    ensures !outcome.Ok? ==> r.output == ui.output && r.stats == ui.stats && r.resultVisible == ui.resultVisible
    ensures outcome.Ok? ==> && r.alerts == ui.alerts && r.resultVisible && r.output == outcome.data.summary
                            && r.stats == TextStats(outcome.data.originalLength, outcome.data.summaryLength)
  {
    var done := ui.(summarizeButton := Button(true, SummarizeLabel));
    match outcome
    case Ok(reply) =>
      done.(output := reply.summary, stats := TextStats(reply.originalLength, reply.summaryLength),
            resultVisible := true)
    case _ => ShowAlert(done, FailureMessage(outcome, SummarizeFailedMessage))
  }

  /** `summarizeText`: a blank text only raises an alert; otherwise exactly
      one request with the trimmed text and the form's settings. */
  function SummarizeText(ui: Ui, form: TextForm, outcome: Net<TextReply>): (r: Ui)
    ensures Valid(ui) ==> Valid(r)
    ensures ui.alerts <= r.alerts && ui.requests <= r.requests && |r.requests| <= |ui.requests| + 1
    ensures AllSpace(JavaScript, form.text) ==> r == ui.(alerts := ui.alerts + [Alert(EmptyTextMessage, Danger)])
    ensures !AllSpace(JavaScript, form.text) ==>
              && r.requests == ui.requests + [PostSummarize(Trim(JavaScript, form.text), form.mode,
                                                            JsParseInt(form.maxLength), JsParseInt(form.minLength))]
              && r.summarizeButton == Button(true, SummarizeLabel)
    ensures !AllSpace(JavaScript, form.text) ==> r == FinishText(StartText(ui, TextRequest(Trim(JavaScript, form.text), form)), outcome)
  {
    var text := Trim(JavaScript, form.text);
    if text == "" then ShowAlert(ui, EmptyTextMessage)
    else FinishText(StartText(ui, TextRequest(text, form)), outcome)
  }

  // ------------------------------------------------------------- upload

  /** Choosing a file in the file input. */
  function ChooseFile(ui: Ui, file: Option<string>): (r: Ui)
    ensures Valid(ui) ==> Valid(r)
    ensures ui.alerts <= r.alerts && ui.requests <= r.requests && |r.requests| <= |ui.requests| + 1
    ensures r.chosenFile == file && r.(chosenFile := ui.chosenFile) == ui
  {
    ui.(chosenFile := file)
  }

  function StartUpload(ui: Ui, request: Request): (r: Ui)
    ensures r.uploadButton == Button(false, BusyLabel)
    ensures r.requests == ui.requests + [request]
    ensures r.(uploadButton := ui.uploadButton, requests := ui.requests) == ui
  {
    ui.(uploadButton := Button(false, BusyLabel), requests := ui.requests + [request])
  }

  /** The end of an upload of the file named `name`: on success the result
      is shown, the input cleared and a success alert added; on failure the
      input keeps its file. The button is restored in every case. */
  function FinishUpload(ui: Ui, name: string, outcome: Net<string>): (r: Ui)
    ensures r.uploadButton == Button(true, UploadLabel)
    ensures SamePage(ui, r) && r.summarizeButton == ui.summarizeButton
    ensures ViewsConsistent(ui) ==> ViewsConsistent(r)
    ensures ui.alerts <= r.alerts
    ensures outcome.TransportFailure? ==> r.alerts == ui.alerts + [Alert(UploadFailedMessage, Danger)]
    ensures outcome.ErrorPayload? ==> r.alerts == ui.alerts + [Alert(outcome.message, Danger)]
    ensures !outcome.Ok? ==> && r.chosenFile == ui.chosenFile && r.output == ui.output
                             && r.stats == ui.stats && r.resultVisible == ui.resultVisible
    ensures outcome.Ok? ==> && r.chosenFile.None? && r.resultVisible && r.output == outcome.data
                            && r.stats == FileStats(name, Utf16Length(outcome.data))
                            && r.alerts == ui.alerts + [Alert(UploadDoneMessage, SuccessKind)]
  {
    var done := ui.(uploadButton := Button(true, UploadLabel));
    match outcome
    case Ok(summary) =>
      var shown := done.(output := summary, stats := FileStats(name, Utf16Length(summary)),
                         resultVisible := true, chosenFile := None);
      ShowAlert(shown, UploadDoneMessage, SuccessKind)
    case _ => ShowAlert(done, FailureMessage(outcome, UploadFailedMessage))
  }

  /** `uploadAndSummarize`: no file only raises an alert; otherwise exactly
      one multipart request with the file and the raw field strings. The
      outcome carries the `summary` of a successful reply. */
  function Upload(ui: Ui, form: UploadForm, outcome: Net<string>): (r: Ui)
    ensures Valid(ui) ==> Valid(r)
    ensures ui.alerts <= r.alerts && ui.requests <= r.requests && |r.requests| <= |ui.requests| + 1
    ensures ui.chosenFile.None? ==> r == ui.(alerts := ui.alerts + [Alert(NoFileMessage, Danger)])
    ensures ui.chosenFile.Some? ==>
              && r.requests == ui.requests + [PostUpload(ui.chosenFile.value, form.mode, form.maxLength, form.minLength)]
              && r.uploadButton == Button(true, UploadLabel)
              && (outcome.Ok? <==> r.chosenFile.None?)
    ensures ui.chosenFile.Some? ==>
              r == FinishUpload(StartUpload(ui, PostUpload(ui.chosenFile.value, form.mode, form.maxLength, form.minLength)),
                                ui.chosenFile.value, outcome)
  {
    match ui.chosenFile
    case None => ShowAlert(ui, NoFileMessage)
    case Some(name) =>
      FinishUpload(StartUpload(ui, PostUpload(name, form.mode, form.maxLength, form.minLength)), name, outcome)
  }

  // ------------------------------------------------------- result, health

  /** The result's download button: the output text, named after the
      clock reading `now` (milliseconds, `Date.now()`). */
  function DownloadResult(ui: Ui, now: nat): (r: Ui)
    ensures Valid(ui) ==> Valid(r)
    ensures ui.alerts <= r.alerts && ui.requests <= r.requests && |r.requests| <= |ui.requests| + 1
    ensures r.downloads == ui.downloads + [Download(ui.output, "summary_" + NatToString(now) + ".txt")]
    ensures r.(downloads := ui.downloads) == ui
  {
    ui.(downloads := ui.downloads + [Download(ui.output, "summary_" + NatToString(now) + ".txt")])
  }

  /** The result's file name carries the clock reading: between `summary_`
      and `.txt` stand decimal digits whose value is `now`. */
  lemma {:induction false} ResultNameCarriesTime(ui: Ui, now: nat)
    ensures var f := DownloadResult(ui, now).downloads[|ui.downloads|].filename;
            && |f| > 12 && f[..8] == "summary_" && f[|f| - 4..] == ".txt"
            && AllDigits(f[8..|f| - 4]) && DigitsValue(f[8..|f| - 4]) == now
  {
    var f := DownloadResult(ui, now).downloads[|ui.downloads|].filename;
    assert f[8..|f| - 4] == NatToString(now);
    NatToStringValue(now);
  }

  /** Downloads of the result at different instants never share a name. */
  lemma {:induction false} ResultNamesDistinct(ui: Ui, now1: nat, now2: nat)
    requires now1 != now2
    ensures DownloadResult(ui, now1).downloads[|ui.downloads|].filename
            != DownloadResult(ui, now2).downloads[|ui.downloads|].filename
  {
    ResultNameCarriesTime(ui, now1);
    ResultNameCarriesTime(ui, now2);
  }

  /** `checkApiHealth`, run once when the page loads. `status` is the
      reply's `status` field, or `None` when the fetch or the JSON parse
      failed; a missing or non-string field is any text but `healthy`. */
  function CheckHealth(ui: Ui, status: Option<string>): (r: Ui)
    ensures Valid(ui) ==> Valid(r)
    ensures ui.alerts <= r.alerts && ui.requests <= r.requests && |r.requests| <= |ui.requests| + 1
    ensures r.requests == ui.requests + [GetHealth]
    ensures status == Some("healthy") ==> r.alerts == ui.alerts
    ensures status.None? ==> r.alerts == ui.alerts + [Alert(UnreachableMessage, Danger)]
    ensures status.Some? && status.value != "healthy" ==>
              r.alerts == ui.alerts + [Alert(UnhealthyMessage, Danger)]
    ensures r.(alerts := ui.alerts, requests := ui.requests) == ui
  {
    var sent := ui.(requests := ui.requests + [GetHealth]);
    match status
    case None => ShowAlert(sent, UnreachableMessage)
    case Some(text) => if text == "healthy" then sent else ShowAlert(sent, UnhealthyMessage)
  }

  // -------------------------------------------------------------- events

  /** Everything a user (or the page load) can do, with the outcome of the
      network call the action makes. */
  datatype Event =
    | ClickHome
    | ClickHistory(history: Net<seq<HistoryItem>>)
    | ClickSummarize(form: TextForm, textOutcome: Net<TextReply>)
    | PickFile(file: Option<string>)
    | SubmitUpload(uploadForm: UploadForm, uploadOutcome: Net<string>)
    | ClickView(viewRow: nat, viewText: Option<string>)
    | ClickDownload(downloadRow: nat, downloadText: Option<string>)
    | ClickDownloadResult(now: nat)
    | PageLoad(health: Option<string>)

  function Step(ui: Ui, e: Event): Ui {
    match e
    case ClickHome => NavHome(ui)
    case ClickHistory(outcome) => NavHistory(ui, outcome)
    case ClickSummarize(form, outcome) => SummarizeText(ui, form, outcome)
    case PickFile(file) => ChooseFile(ui, file)
    case SubmitUpload(form, outcome) => Upload(ui, form, outcome)
    case ClickView(i, fetched) => ViewSummary(ui, i, fetched)
    case ClickDownload(i, fetched) => DownloadSummary(ui, i, fetched)
    case ClickDownloadResult(now) => DownloadResult(ui, now)
    case PageLoad(outcome) => CheckHealth(ui, outcome)
  }

  function Run(ui: Ui, events: seq<Event>): Ui
    decreases |events|
  {
    if |events| == 0 then ui else Run(Step(ui, events[0]), events[1..])
  }

  /** Every transition keeps exactly one view shown with its link active,
      and leaves both buttons enabled with their labels: no exit path of a
      network phase leaves a button disabled or busy. */
  lemma StepKeepsValid(ui: Ui, e: Event)
    requires Valid(ui)
    ensures Valid(Step(ui, e))
  {
  }

  lemma {:induction false} RunKeepsValid(ui: Ui, events: seq<Event>)
    requires Valid(ui)
    ensures Valid(Run(ui, events))
    decreases |events|
  {
    if |events| > 0 {
      StepKeepsValid(ui, events[0]);
      RunKeepsValid(Step(ui, events[0]), events[1..]);
    }
  }

  /** Hence the two views are never shown together, from the loaded page on. */
  lemma {:induction false} ViewsNeverBothShown(events: seq<Event>)
    ensures var ui := Run(Loaded, events); !(ui.homeVisible && ui.historyVisible)
    ensures ButtonsIdle(Run(Loaded, events))
  {
    RunKeepsValid(Loaded, events);
  }

  /** Alerts and requests are only ever appended, and an action sends at
      most one request. */
  lemma StepAppends(ui: Ui, e: Event)
    ensures ui.alerts <= Step(ui, e).alerts
    ensures ui.requests <= Step(ui, e).requests
    ensures |Step(ui, e).requests| <= |ui.requests| + 1
  {
  }

  lemma {:induction false} RunAppends(ui: Ui, events: seq<Event>)
    ensures ui.alerts <= Run(ui, events).alerts
    ensures ui.requests <= Run(ui, events).requests
    ensures |Run(ui, events).requests| <= |ui.requests| + |events|
    decreases |events|
  {
    if |events| > 0 {
      StepAppends(ui, events[0]);
      RunAppends(Step(ui, events[0]), events[1..]);
    }
  }

  /** Once the history has loaded `items`, whatever the page held before,
      the view and download buttons of row `i` each send one request, for
      item `i`'s id, and show or save that item's text under its id. */
  lemma RowButtonsFetchTheirItem(ui: Ui, items: seq<HistoryItem>, i: nat, fetched: Option<string>)
    requires i < |items|
    ensures var loaded := LoadHistory(ui, Ok(items));
            && ViewSummary(loaded, i, fetched).requests == loaded.requests + [GetSummary(items[i].id)]
            && (fetched.Some? ==> ViewSummary(loaded, i, fetched).modal == fetched)
            && DownloadSummary(loaded, i, fetched).requests == loaded.requests + [GetSummary(items[i].id)]
            && (fetched.Some? ==> DownloadSummary(loaded, i, fetched).downloads
                                  == loaded.downloads + [Download(fetched.value, items[i].id)])
  {
  }
}

=== FILE: json.dfy ===
/** Decoded JSON values, as a Flask handler sees the entries of `request.json`. */
module Json {
  import opened Wrappers

  datatype Json =
    | JNull | JBool(b: bool) | JInt(i: int) | JReal(r: real) | JString(s: string)
    | JArray(items: seq<Json>) | JObject(members: map<string, Json>)

  /** `obj.get(key, default)` on a decoded JSON object. */
  function Get(obj: map<string, Json>, key: string, default: Json): (v: Json)
    ensures key in obj ==> v == obj[key]
    ensures key !in obj ==> v == default
  {
    if key in obj then obj[key] else default
  }

  /** Python's `not v` for the decoded value. */
  predicate Falsy(v: Json) {
    match v
    case JNull => true
    case JBool(b) => !b
    case JInt(i) => i == 0
    case JReal(r) => r == 0.0
    case JString(s) => s == ""
    case JArray(items) => items == []
    case JObject(members) => members == map[]
  }

  /** Python's `len(v)`: defined for strings, lists and dicts only. */
  function PyLen(v: Json): (n: Option<nat>)
    ensures n.Some? <==> v.JString? || v.JArray? || v.JObject?
  {
    match v
    case JString(s) => Some(|s|)
    case JArray(items) => Some(|items|)
    case JObject(members) => Some(|members|)
    case _ => None
  }
}

=== FILE: summarizer.dfy ===
/** The `ReportSummarizer` class: settings, model loading with its fallback,
    the extractive TF-IDF summary and the dispatch on the summarization
    method (the attribute `method`, called `mode` here since `method` is a
    Dafny keyword). */
module Summarizer {
  import opened Wrappers
  import opened Text
  import opened Json
  import TopK

  /** What one call of the Hugging Face summarization pipeline produced;
      `GenerationFailed` stands for any exception it raised. */
  datatype Generation = Generated(summary: string) | GenerationFailed

  /** The libraries the class calls, as opaque functions: whether NLTK's
      `sent_tokenize` runs on a text (it raises `LookupError` when its
      sentence data is missing) and the sentences it returns; whether the TF-IDF vectorizer's `fit_transform`
      succeeds on a list of sentences, and the row sum of sentence `i` in
      the matrix it builds; the BART pipeline of a named model, called on a
      text with the current `max_length` and `min_length`. */
  datatype Nlp = Nlp(
    tokenizes: string -> bool,
    tokenize: string -> seq<string>,
    vectorizes: seq<string> -> bool,
    rowSum: (seq<string>, nat) -> real,
    generate: (string, string, Json, Json) -> Generation)

  /** The exceptions `extractive_summarize` can raise: sentence splitting
      raised, the vectorizer attribute was never created, or `fit_transform`
      raised. */
  datatype Fault = TokenizerFailed | VectorizerMissing | VectorizerFailed

  /** The instance attributes. Settings hold whatever value was assigned:
      the web layer assigns decoded JSON. `pipeline` is the model name when
      `self.summarizer` exists; `hasVectorizer` says `self.vectorizer` exists. */
  datatype Summarizer = Summarizer(
    mode: Json, maxLength: Json, minLength: Json,
    pipeline: Option<string>, hasVectorizer: bool)

  const Abstractive: Json := JString("abstractive")
  const Extractive: Json := JString("extractive")
  const DefaultModel: string := "facebook/bart-large-cnn"

  /** The model `__init__` loads: the given name unless it is missing or empty. */
  function ModelName(modelName: Option<string>): (name: string)
    ensures name != ""
    ensures modelName.Some? && modelName.value != "" ==> name == modelName.value
    ensures modelName.None? || modelName.value == "" ==> name == DefaultModel
  {
    if modelName.Some? && modelName.value != "" then modelName.value else DefaultModel
  }

  /** `ReportSummarizer.__init__`; `loads` says whether loading a model by
      name succeeds (tokenizer, weights and pipeline). */
  function Init(mode: Json, modelName: Option<string>, maxLength: Json, minLength: Json,
                loads: string -> bool): (s: Summarizer)
    ensures s.maxLength == maxLength && s.minLength == minLength
    // a fresh instance can run the method it reports
    ensures s.mode == Abstractive ==> s.pipeline.Some?
    ensures s.mode == Extractive ==> s.hasVectorizer
    ensures s.pipeline.Some? ==> s.mode == Abstractive && s.pipeline.value == ModelName(modelName)
    // a failed load falls back to the extractive method
    ensures mode == Abstractive && !loads(ModelName(modelName)) ==> s.mode == Extractive
    // a model that loads keeps the method and installs its pipeline
    ensures mode == Abstractive && loads(ModelName(modelName)) ==>
              s.mode == Abstractive && s.pipeline == Some(ModelName(modelName)) && !s.hasVectorizer
    ensures s.hasVectorizer <==> s.mode == Extractive
    ensures mode != Abstractive ==> s.mode == mode && s.pipeline.None?
  {
    var loaded := mode == Abstractive && loads(ModelName(modelName));
    var m := if mode == Abstractive && !loaded then Extractive else mode;
    Summarizer(m, maxLength, minLength,
               if loaded then Some(ModelName(modelName)) else None,
               m == Extractive)
  }

  /** The instance the web application builds at start-up, with
      `method='extractive'` and the default lengths. The loader is never
      consulted for that method, so any stands in for it. */
  const AppSummarizer: Summarizer := Init(Extractive, None, JInt(150), JInt(40), _ => false)

  /** The application's instance has a vectorizer and no pipeline. */
  lemma AppSummarizerIsExtractive(loads: string -> bool)
    ensures AppSummarizer == Init(Extractive, None, JInt(150), JInt(40), loads)
    ensures AppSummarizer.pipeline.None? && AppSummarizer.hasVectorizer
    ensures AppSummarizer.mode == Extractive
  {
  }

  /** Asking for `'abstractive'` falls back to `'extractive'` exactly when
      the model fails to load. */
  lemma {:induction false} FallbackExactlyOnLoadFailure(modelName: Option<string>, maxLength: Json,
                                                         minLength: Json, loads: string -> bool)
    ensures Init(Abstractive, modelName, maxLength, minLength, loads).mode == Extractive
            <==> !loads(ModelName(modelName))
    ensures Init(Abstractive, modelName, maxLength, minLength, loads).pipeline.Some?
            <==> loads(ModelName(modelName))
  {
  }

  /** `preprocess_text` succeeds: sentence splitting does not raise on the
      stripped text. */
  predicate Tokenizes(nlp: Nlp, text: string) {
    nlp.tokenizes(Trim(Python, text))
  }

  /** `preprocess_text`: strip, then split into sentences. */
  function Sentences(nlp: Nlp, text: string): seq<string> {
    nlp.tokenize(Trim(Python, text))
  }

  /** Preprocessing ignores the whitespace around a text: a stripped text
      gives the same sentences, and splitting fails on it exactly when it
      fails on the original. */
  lemma {:induction false} SentencesIgnoreSurroundingSpace(nlp: Nlp, text: string)
    ensures Sentences(nlp, Trim(Python, text)) == Sentences(nlp, text)
    ensures Tokenizes(nlp, Trim(Python, text)) == Tokenizes(nlp, text)
  {
    assert Sentences(nlp, Trim(Python, text)) == Sentences(nlp, text) by {
      TrimIdempotent(Python, text);
    }
    assert Tokenizes(nlp, Trim(Python, text)) == Tokenizes(nlp, text) by {
      TrimIdempotent(Python, text);
    }
  }

  /** How many sentences a summary of `n > 3` sentences keeps:
      `max(min(int(n / 3), 10), 3)`. */
  function KeepCount(n: nat): (k: nat)
    requires n > 3
    ensures 3 <= k <= 10 && k <= n
    ensures n < 9 ==> k == 3
    ensures 9 <= n < 33 ==> 3 * k <= n < 3 * k + 3
    ensures n >= 33 ==> k == 10
  {
    var third := n / 3;
    var capped := if third < 10 then third else 10;
    if capped > 3 then capped else 3
  }

  /** The TF-IDF row sums, one per sentence. */
  function Scores(nlp: Nlp, sentences: seq<string>): (scores: seq<real>)
    ensures |scores| == |sentences|
  {
    seq(|sentences|, i requires 0 <= i < |sentences| => nlp.rowSum(sentences, i))
  }

  /** The sentences at the given positions, in the order given. */
  function Pick(sentences: seq<string>, idx: seq<nat>): (picked: seq<string>)
    requires forall a :: 0 <= a < |idx| ==> idx[a] < |sentences|
    ensures |picked| == |idx|
    ensures forall a :: 0 <= a < |idx| ==> picked[a] == sentences[idx[a]]
  {
    seq(|idx|, a requires 0 <= a < |idx| => sentences[idx[a]])
  }

  /** `extractive_summarize`. Up to three sentences: the text itself,
      unstripped. Otherwise the `KeepCount` best-scored sentences, in
      document order, joined by single spaces. */
  function ExtractiveSummarize(s: Summarizer, nlp: Nlp, text: string): (r: Result<string, Fault>)
    ensures !Tokenizes(nlp, text) ==> r == Failure(TokenizerFailed)
    ensures Tokenizes(nlp, text) && |Sentences(nlp, text)| <= 3 ==> r == Success(text)
    ensures Tokenizes(nlp, text) && |Sentences(nlp, text)| > 3 && !s.hasVectorizer
            ==> r == Failure(VectorizerMissing)
    ensures (Tokenizes(nlp, text) && |Sentences(nlp, text)| > 3 && s.hasVectorizer
             && !nlp.vectorizes(Sentences(nlp, text))) ==> r == Failure(VectorizerFailed)
    // with a working vectorizer, a longer text is always summarized
    ensures (Tokenizes(nlp, text) && |Sentences(nlp, text)| > 3 && s.hasVectorizer
             && nlp.vectorizes(Sentences(nlp, text))) ==>
              && r.Success?
              && var sentences := Sentences(nlp, text);
                 exists idx :: TopK.IsTopK(Scores(nlp, sentences), KeepCount(|sentences|), idx)
                               && r.value == Join(Pick(sentences, idx), " ")
  {
    var sentences := Sentences(nlp, text);
    if !Tokenizes(nlp, text) then Failure(TokenizerFailed)
    else if |sentences| <= 3 then Success(text)
    else if !s.hasVectorizer then Failure(VectorizerMissing)
    else if !nlp.vectorizes(sentences) then Failure(VectorizerFailed)
    else
      var idx := TopK.TopIndices(Scores(nlp, sentences), KeepCount(|sentences|));
      Success(Join(Pick(sentences, idx), " "))
  }

  /** `abstractive_summarize`: the pipeline's output, or, when the pipeline
      is missing (the attribute lookup raises) or the call raises, the
      extractive summary of the same text. */
  function AbstractiveSummarize(s: Summarizer, nlp: Nlp, text: string): (r: Result<string, Fault>)
    ensures s.pipeline.Some? && nlp.generate(s.pipeline.value, text, s.maxLength, s.minLength).Generated?
            ==> r == Success(nlp.generate(s.pipeline.value, text, s.maxLength, s.minLength).summary)
    ensures s.pipeline.None? ==> r == ExtractiveSummarize(s, nlp, text)
    ensures s.pipeline.Some? && nlp.generate(s.pipeline.value, text, s.maxLength, s.minLength).GenerationFailed?
            ==> r == ExtractiveSummarize(s, nlp, text)
  {
    match s.pipeline
    case Some(model) =>
      (match nlp.generate(model, text, s.maxLength, s.minLength)
       case Generated(summary) => Success(summary)
       case GenerationFailed => ExtractiveSummarize(s, nlp, text))
    case None => ExtractiveSummarize(s, nlp, text)
  }

  /** `summarize`: the empty string for a blank text without running any
      summarizer; otherwise the abstractive path exactly when the method is
      `'abstractive'`, the extractive path for every other value. */
  function Summarize(s: Summarizer, nlp: Nlp, text: string): (r: Result<string, Fault>)
    ensures AllSpace(Python, text) ==> r == Success("")
    ensures !AllSpace(Python, text) && s.mode == Abstractive ==> r == AbstractiveSummarize(s, nlp, text)
    ensures !AllSpace(Python, text) && s.mode != Abstractive ==> r == ExtractiveSummarize(s, nlp, text)
  {
    if Trim(Python, text) == "" then Success("")
    else if s.mode == Abstractive then AbstractiveSummarize(s, nlp, text)
    else ExtractiveSummarize(s, nlp, text)
  }

  /** `summarize_file`: the file's text (`None` when it cannot be opened or
      decoded as UTF-8) summarized, and `""` whenever anything raised. */
  function SummarizeFile(s: Summarizer, nlp: Nlp, content: Option<string>): (r: string)
    ensures content.None? ==> r == ""
    ensures content.Some? && Summarize(s, nlp, content.value).Failure? ==> r == ""
    ensures content.Some? && Summarize(s, nlp, content.value).Success? ==> r == Summarize(s, nlp, content.value).value
  {
    match content
    case None => ""
    case Some(text) =>
      (match Summarize(s, nlp, text)
       case Success(summary) => summary
       case Failure(_) => "")
  }

  /** An instance that never loaded a pipeline gives the extractive summary
      whatever method it is set to. The web application builds its instance
      with `method='extractive'`, so a request for `'abstractive'` silently
      gets the extractive summary. */
  lemma WithoutPipelineMethodIsIrrelevant(s: Summarizer, nlp: Nlp, text: string, mode: Json)
    requires s.pipeline.None?
    ensures Summarize(s.(mode := mode), nlp, text) == Summarize(s.(mode := Extractive), nlp, text)
  {
  }

  /** A summary built from picked sentences reproduces each of them
      verbatim, at some offset. */
  lemma {:induction false} PickedSentenceOccurs(sentences: seq<string>, idx: seq<nat>, a: nat)
    requires forall b :: 0 <= b < |idx| ==> idx[b] < |sentences|
    requires a < |idx|
    ensures exists off :: OccursAt(Join(Pick(sentences, idx), " "), sentences[idx[a]], off)
  {
    var parts := Pick(sentences, idx);
    JoinContainsParts(parts, " ", a);
    var off :| OccursAt(Join(parts, " "), parts[a], off);
    assert OccursAt(Join(parts, " "), sentences[idx[a]], off);
  }
}

=== FILE: text.dfy ===
/** String helpers with the exact character classes of the two languages the
    system is written in: Python (server) and JavaScript (browser). */
module Text {
  import opened Wrappers

  /** Which definition of "whitespace" applies: Python's `str.strip`, the
      narrower set Python's `int()` skips around a number, or JavaScript's
      `trim`. */
  datatype Lang = Python | PythonInt | JavaScript

  /** `str.isspace` in Python; for `int()` the same set without the ASCII
      separators U+001C-U+001F (it skips ASCII whitespace and any non-ASCII
      `isspace` character only); the WhiteSpace and LineTerminator
      productions of ECMAScript in JavaScript (what `String.prototype.trim`
      removes). */
  predicate IsSpace(lang: Lang, c: char) {
    || c == ' ' || '\t' <= c <= '\r'
    || c == '\U{A0}' || c == '\U{1680}' || '\U{2000}' <= c <= '\U{200A}'
    || c == '\U{2028}' || c == '\U{2029}' || c == '\U{202F}' || c == '\U{205F}' || c == '\U{3000}'
    || (lang == Python && '\U{1C}' <= c <= '\U{1F}')
    || (lang != JavaScript && c == '\U{85}')
    || (lang == JavaScript && c == '\U{FEFF}')
  }

  /** The whitespace `int()` skips is the part of `str.isspace` outside the
      four ASCII information separators. */
  lemma IntSpaceIsStripSpace(c: char)
    ensures IsSpace(PythonInt, c) <==> IsSpace(Python, c) && !('\U{1C}' <= c <= '\U{1F}')
  {
  }

  predicate AllSpace(lang: Lang, s: string) {
    forall i :: 0 <= i < |s| ==> IsSpace(lang, s[i])
  }

  /** Drops the leading whitespace (`trimStart`, `lstrip`). */
  function TrimStart(lang: Lang, s: string): (r: string)
    ensures |r| <= |s| && r == s[|s| - |r|..]
    ensures AllSpace(lang, s[..|s| - |r|])
    ensures r == [] || !IsSpace(lang, r[0])
  {
    if |s| > 0 && IsSpace(lang, s[0]) then
      var r := TrimStart(lang, s[1..]);
      assert s[..|s| - |r|] == [s[0]] + s[1..][..|s| - 1 - |r|];
      r
    else s
  }

  /** Drops the trailing whitespace (`trimEnd`, `rstrip`). */
  function TrimEnd(lang: Lang, s: string): (r: string)
    ensures |r| <= |s| && r == s[..|r|]
    ensures AllSpace(lang, s[|r|..])
    ensures r == [] || !IsSpace(lang, r[|r| - 1])
  {
    if |s| > 0 && IsSpace(lang, s[|s| - 1]) then
      var r := TrimEnd(lang, s[..|s| - 1]);
      assert s[|r|..] == s[..|s| - 1][|r|..] + [s[|s| - 1]];
      r
    else s
  }

  /** Python's `str.strip()` and JavaScript's `String.prototype.trim()`: the
      result is the infix of `s` left once the whitespace around it is gone. */
  function Trim(lang: Lang, s: string): (r: string)
    ensures exists a :: TrimmedAt(lang, s, r, a)
    ensures r == [] || (!IsSpace(lang, r[0]) && !IsSpace(lang, r[|r| - 1]))
    ensures r == [] <==> AllSpace(lang, s)
  {
    var t := TrimStart(lang, s);
    var r := TrimEnd(lang, t);
    TrimLocated(lang, s, t, r);
    TrimEdges(lang, t, r);
    TrimEmpty(lang, s, t, r);
    r
  }

  /** The trimmed text sits where the leading whitespace ends. */
  lemma {:induction false} TrimLocated(lang: Lang, s: string, t: string, r: string)
    requires |t| <= |s| && t == s[|s| - |t|..] && AllSpace(lang, s[..|s| - |t|])
    requires |r| <= |t| && r == t[..|r|] && AllSpace(lang, t[|r|..])
    ensures TrimmedAt(lang, s, r, |s| - |t|)
  {
    var a := |s| - |t|;
    SuffixSlices(s, a, |r|);
    assert s[a + |r|..] == t[|r|..];
  }

  /** Slicing a suffix of `s` is slicing `s` itself, shifted by its offset. */
  lemma SuffixSlices(s: string, a: nat, k: nat)
    requires a + k <= |s|
    ensures s[a..][..k] == s[a..a + k] && s[a..][k..] == s[a + k..]
  {
  }

  lemma {:induction false} TrimEdges(lang: Lang, t: string, r: string)
    requires t == [] || !IsSpace(lang, t[0])
    requires |r| <= |t| && r == t[..|r|] && (r == [] || !IsSpace(lang, r[|r| - 1]))
    ensures r == [] || (!IsSpace(lang, r[0]) && !IsSpace(lang, r[|r| - 1]))
  {
    if r != [] {
      assert r[0] == t[0];
    }
  }

  lemma {:induction false} TrimEmpty(lang: Lang, s: string, t: string, r: string)
    requires |t| <= |s| && t == s[|s| - |t|..] && AllSpace(lang, s[..|s| - |t|])
    requires t == [] || !IsSpace(lang, t[0])
    requires |r| <= |t| && r == t[..|r|] && AllSpace(lang, t[|r|..])
    ensures r == [] <==> AllSpace(lang, s)
  {
    var a := |s| - |t|;
    assert s[a..] == t;
    if r == [] {
      assert t[|r|..] == t;
      assert s == s[..a] + t;
      AllSpaceConcat(lang, s[..a], t);
    } else {
      assert s[a] == t[0] == r[0];
      assert !IsSpace(lang, s[a]);
    }
  }

  /** `r` sits at offset `a` of `s` with only whitespace around it. */
  predicate TrimmedAt(lang: Lang, s: string, r: string, a: int) {
    && 0 <= a <= a + |r| <= |s| && r == s[a..a + |r|]
    && AllSpace(lang, s[..a]) && AllSpace(lang, s[a + |r|..])
  }

  lemma AllSpaceConcat(lang: Lang, x: string, y: string)
    requires AllSpace(lang, x) && AllSpace(lang, y)
    ensures AllSpace(lang, x + y)
  {
  }

  /** Trimming twice is trimming once. */
  lemma TrimIdempotent(lang: Lang, s: string)
    ensures Trim(lang, Trim(lang, s)) == Trim(lang, s)
  {
    var r := Trim(lang, s);
    assert TrimStart(lang, r) == r;
    assert TrimEnd(lang, r) == r;
  }

  /** ASCII `A`-`Z` mapped to `a`-`z`, everything else unchanged. */
  function AsciiLower(s: string): (r: string)
    ensures |r| == |s|
    ensures forall i :: 0 <= i < |s| && 'A' <= s[i] <= 'Z' ==> r[i] as int == s[i] as int + 32
    ensures forall i :: 0 <= i < |s| && !('A' <= s[i] <= 'Z') ==> r[i] == s[i]
  {
    seq(|s|, i requires 0 <= i < |s| => if 'A' <= s[i] <= 'Z' then (s[i] as int + 32) as char else s[i])
  }

  /** Index of the last occurrence of `c`, if any. */
  function LastIndexOf(s: string, c: char): (r: Option<nat>)
    ensures r.None? <==> c !in s
    ensures r.Some? ==> r.value < |s| && s[r.value] == c && c !in s[r.value + 1..]
  {
    if |s| == 0 then None
    else if s[|s| - 1] == c then Some(|s| - 1)
    else
      var r := LastIndexOf(s[..|s| - 1], c);
      assert s == s[..|s| - 1] + [s[|s| - 1]];
      if r.Some? then assert s[r.value + 1..] == s[..|s| - 1][r.value + 1..] + [s[|s| - 1]]; r
      else r
  }

  /** `s.rsplit(c, 1)[0]`: the part before the last `c`, or all of `s`. */
  function BeforeLast(s: string, c: char): (r: string)
    ensures |r| <= |s| && r == s[..|r|]
    ensures c !in s ==> r == s
  {
    match LastIndexOf(s, c)
    case None => s
    case Some(i) => s[..i]
  }

  /** `s.rsplit(c, 1)[1]`, which exists only when `c` occurs in `s`. */
  function AfterLast(s: string, c: char): (r: string)
    requires c in s
    ensures c !in r
  {
    var i := LastIndexOf(s, c).value;
    s[i + 1..]
  }

  /** Splitting at the last `c` loses nothing: the two halves and the
      separator rebuild the input, and the second half has no `c`. */
  lemma {:induction false} SplitLastRoundTrip(s: string, c: char)
    requires c in s
    ensures BeforeLast(s, c) + [c] + AfterLast(s, c) == s
    ensures c !in AfterLast(s, c)
  {
    var i := LastIndexOf(s, c).value;
    assert s == s[..i] + [s[i]] + s[i + 1..];
  }

  /** `s` is `before`, then `c`, then a tail free of `c`. */
  predicate IsLastSplit(s: string, c: char, before: string, after: string) {
    s == before + [c] + after && c !in after
  }

  /** Conversely, any split of `s` around a `c` whose right half has no `c`
      is the split at the last `c`. */
  lemma {:induction false} SplitLastUnique(s: string, c: char, before: string, after: string)
    requires IsLastSplit(s, c, before, after)
    ensures c in s
    ensures BeforeLast(s, c) == before && AfterLast(s, c) == after
  {
    assert s[|before|] == c;
  }

  /** Python's `sep.join(parts)`. */
  function Join(parts: seq<string>, sep: string): string {
    if |parts| == 0 then ""
    else if |parts| == 1 then parts[0]
    else parts[0] + sep + Join(parts[1..], sep)
  }

  /** Every part of a join occurs in it, at its place. */
  lemma {:induction false} JoinContainsParts(parts: seq<string>, sep: string, k: nat)
    requires k < |parts|
    ensures exists off :: OccursAt(Join(parts, sep), parts[k], off)
  {
    var j := Join(parts, sep);
    if k == 0 {
      assert j[0..|parts[0]|] == parts[0];
      assert OccursAt(j, parts[0], 0);
    } else {
      JoinContainsParts(parts[1..], sep, k - 1);
      var rest := Join(parts[1..], sep);
      var off :| OccursAt(rest, parts[k], off);
      var p := |parts[0]| + |sep|;
      assert j == parts[0] + sep + rest;
      assert j[p + off..p + off + |parts[k]|] == rest[off..off + |parts[k]|];
      assert OccursAt(j, parts[k], p + off);
    }
  }

  /** `part` occurs in `s` starting at offset `off`. */
  predicate OccursAt(s: string, part: string, off: int) {
    0 <= off <= off + |part| <= |s| && s[off..off + |part|] == part
  }

  /** The length of a join: the parts plus one separator between each pair. */
  lemma {:induction false} JoinLength(parts: seq<string>, sep: string)
    requires |parts| > 0
    ensures |Join(parts, sep)| == TotalLength(parts) + (|parts| - 1) * |sep|
  {
    if |parts| > 1 {
      JoinLength(parts[1..], sep);
    }
  }

  function TotalLength(parts: seq<string>): nat {
    if |parts| == 0 then 0 else |parts[0]| + TotalLength(parts[1..])
  }

  /** `s.length` in JavaScript: UTF-16 code units, two for a character
      outside the Basic Multilingual Plane. */
  function Utf16Length(s: string): (n: nat)
    ensures |s| <= n <= 2 * |s|
    ensures n == |s| + |Astral(s)|
    ensures (forall i :: 0 <= i < |s| ==> s[i] as int < 0x1_0000) ==> n == |s|
  {
    if |s| == 0 then
      assert Astral(s) == {};
      0
    else
      AstralSnoc(s);
      Utf16Length(s[..|s| - 1]) + (if s[|s| - 1] as int < 0x1_0000 then 1 else 2)
  }

  /** The positions of the characters outside the Basic Multilingual Plane,
      each of which takes a surrogate pair in UTF-16. */
  function Astral(s: string): set<nat> {
    set i: nat | i < |s| && s[i] as int >= 0x1_0000
  }

  lemma AstralSnoc(s: string)
    requires |s| > 0
    ensures |Astral(s)| == |Astral(s[..|s| - 1])| + (if s[|s| - 1] as int >= 0x1_0000 then 1 else 0)
  {
    var p := s[..|s| - 1];
    var last: nat := |s| - 1;
    if s[last] as int >= 0x1_0000 {
      assert Astral(s) == Astral(p) + {last};
      assert last !in Astral(p);
    } else {
      assert Astral(s) == Astral(p);
    }
  }

  // ---------------------------------------------------------------- decimals

  predicate IsDigit(c: char) { '0' <= c <= '9' }

  predicate AllDigits(s: string) {
    forall i :: 0 <= i < |s| ==> IsDigit(s[i])
  }

  function DigitChar(d: nat): (c: char)
    requires d < 10
    ensures IsDigit(c) && c as int - '0' as int == d
  {
    ('0' as int + d) as char
  }

  /** The value of a string of decimal digits, most significant first. */
  function DigitsValue(s: string): nat
    requires AllDigits(s)
  {
    if |s| == 0 then 0
    else 10 * DigitsValue(s[..|s| - 1]) + (s[|s| - 1] as int - '0' as int)
  }

  /** The shortest decimal rendering of `n` (`String(n)` in JavaScript, `str(n)` in Python). */
  function NatToString(n: nat): (s: string)
    ensures |s| > 0 && AllDigits(s)
    ensures |s| > 1 ==> s[0] != '0'
  {
    if n < 10 then [DigitChar(n)] else NatToString(n / 10) + [DigitChar(n % 10)]
  }

  lemma {:induction false} NatToStringValue(n: nat)
    ensures DigitsValue(NatToString(n)) == n
  {
    if n >= 10 {
      NatToStringValue(n / 10);
      var s := NatToString(n);
      assert s[..|s| - 1] == NatToString(n / 10);
    }
  }

  /** The longest prefix of decimal digits. */
  function DigitPrefix(s: string): (r: string)
    ensures |r| <= |s| && r == s[..|r|] && AllDigits(r)
    ensures |r| < |s| ==> !IsDigit(s[|r|])
  {
    if |s| > 0 && IsDigit(s[0]) then [s[0]] + DigitPrefix(s[1..]) else []
  }

  /** An optional sign prefix: whether it was `-`, and the rest. */
  function SplitSign(s: string): (bool, string) {
    if |s| > 0 && s[0] == '-' then (true, s[1..])
    else if |s| > 0 && s[0] == '+' then (false, s[1..])
    else (false, s)
  }

  function Signed(negative: bool, v: nat): int {
    if negative then -(v as int) else v
  }

  /** `Number.MAX_SAFE_INTEGER`, 2^53 - 1: up to it every integer is a
      double, so `parseInt` returns a decimal count exactly. */
  const MaxSafeInteger: nat := 0x1F_FFFF_FFFF_FFFF

  /** `0x` or `0X`: with no radix given, `parseInt` then reads base 16. */
  predicate HexPrefixed(body: string) {
    |body| >= 2 && body[0] == '0' && (body[1] == 'x' || body[1] == 'X')
  }

  predicate IsHexDigit(c: char) {
    IsDigit(c) || 'a' <= c <= 'f' || 'A' <= c <= 'F'
  }

  function HexDigitValue(c: char): (v: nat)
    requires IsHexDigit(c)
    ensures v < 16
  {
    if IsDigit(c) then c as int - '0' as int
    else if 'a' <= c <= 'f' then c as int - 'a' as int + 10
    else c as int - 'A' as int + 10
  }

  /** The value of a string of hexadecimal digits, most significant first. */
  function HexValue(s: string): nat
    requires forall i :: 0 <= i < |s| ==> IsHexDigit(s[i])
  {
    if |s| == 0 then 0
    else 16 * HexValue(s[..|s| - 1]) + HexDigitValue(s[|s| - 1])
  }

  /** The longest prefix of hexadecimal digits. */
  function HexDigitPrefix(s: string): (r: string)
    ensures |r| <= |s| && r == s[..|r|]
    ensures forall i :: 0 <= i < |r| ==> IsHexDigit(r[i])
    ensures |r| < |s| ==> !IsHexDigit(s[|r|])
  {
    if |s| > 0 && IsHexDigit(s[0]) then [s[0]] + HexDigitPrefix(s[1..]) else []
  }

  /** JavaScript's `parseInt(s)` with no radix: leading whitespace and a
      sign are skipped; after `0x` or `0X` the longest run of hexadecimal
      digits is read, otherwise the longest run of decimal digits, and the
      rest is ignored. `None` is `NaN` (no digit at all). */
  function JsParseInt(s: string): (r: Option<int>)
    ensures var (_, body) := SplitSign(TrimStart(JavaScript, s));
            HexPrefixed(body) ==> (r.None? <==> |body| == 2 || !IsHexDigit(body[2]))
    ensures var (_, body) := SplitSign(TrimStart(JavaScript, s));
            !HexPrefixed(body) ==> (r.None? <==> |body| == 0 || !IsDigit(body[0]))
  {
    var (negative, body) := SplitSign(TrimStart(JavaScript, s));
    if HexPrefixed(body) then
      var digits := HexDigitPrefix(body[2..]);
      if |digits| == 0 then None else Some(Signed(negative, HexValue(digits)))
    else
      var digits := DigitPrefix(body);
      if |digits| == 0 then None else Some(Signed(negative, DigitsValue(digits)))
  }

  /** `parseInt("0x1A")` is 26, and `parseInt("0x")` is `NaN`. */
  lemma HexPrefixRead()
    ensures JsParseInt("0x1A") == Some(26)
    ensures JsParseInt("0x") == None
  {
    ReadsHexLiteral("0x1A");
    ReadsBareHexPrefix("0x");
  }

  lemma ReadsHexLiteral(x: string)
    requires x == ['0', 'x', '1', 'A']
    ensures JsParseInt(x) == Some(26)
  {
    assert SplitSign(TrimStart(JavaScript, x)) == (false, x) by {
      assert [] + x == x;
      TrimStartSkips(JavaScript, [], x);
    }
    assert x[2..] == ['1', 'A'];
    HexDigitsOneA(['1', 'A']);
  }

  lemma HexDigitsOneA(h: string)
    requires h == ['1', 'A']
    ensures HexDigitPrefix(h) == h && HexValue(h) == 26
  {
    assert h[1..] == ['A'] && ['A'][1..] == [];
    assert HexDigitPrefix(['A']) == ['A'];
    assert h[..1] == ['1'] && ['1'][..0] == [];
    assert HexValue(['1']) == 1;
  }

  lemma ReadsBareHexPrefix(x: string)
    requires x == ['0', 'x']
    ensures JsParseInt(x) == None
  {
    assert SplitSign(TrimStart(JavaScript, x)) == (false, x) by {
      assert [] + x == x;
      TrimStartSkips(JavaScript, [], x);
    }
    assert x[2..] == [];
  }

  /** The digit groups Python's `int()` accepts: digits, with single
      underscores allowed between two digits. */
  predicate PyDigitGroups(s: string) {
    && |s| > 0 && IsDigit(s[0]) && IsDigit(s[|s| - 1])
    && (forall i :: 0 <= i < |s| ==> IsDigit(s[i]) || s[i] == '_')
    && (forall i, j :: 0 <= i < |s| && 0 <= j < |s| && j == i + 1 ==> s[i] != '_' || s[j] != '_')
  }

  function DropUnderscores(s: string): (r: string)
    requires forall i :: 0 <= i < |s| ==> IsDigit(s[i]) || s[i] == '_'
    ensures AllDigits(r) && |r| <= |s|
    ensures AllDigits(s) ==> r == s
  {
    if |s| == 0 then []
    else if s[0] == '_' then DropUnderscores(s[1..])
    else [s[0]] + DropUnderscores(s[1..])
  }

  /** `sys.get_int_max_str_digits()` at its default: `int()` refuses a
      decimal string with more digits than this. */
  const IntMaxStrDigits: nat := 4300

  /** Python's `int(s)` on a string: surrounding whitespace skipped, an
      optional sign, then digit groups of at most `IntMaxStrDigits` digits
      (underscores not counted); anything else raises `ValueError`, which is
      `None` here. */
  function PyInt(s: string): (r: Option<int>)
    ensures var (_, body) := SplitSign(Trim(PythonInt, s));
            r.Some? <==> PyDigitGroups(body) && |DropUnderscores(body)| <= IntMaxStrDigits
  {
    var (negative, body) := SplitSign(Trim(PythonInt, s));
    if PyDigitGroups(body) && |DropUnderscores(body)| <= IntMaxStrDigits then
      Some(Signed(negative, DigitsValue(DropUnderscores(body))))
    else None
  }

  /** The ASCII separators U+001C-U+001F are whitespace to `str.strip` but
      not to `int()`: `"\x1c5".strip()` is `"5"`, yet `int("\x1c5")` raises. */
  lemma SeparatorIsNotIntSpace()
    ensures Trim(Python, "\U{1C}5") == "5"
    ensures PyInt("\U{1C}5") == None
  {
    StripsLeadingSeparator("\U{1C}5");
    IntRejectsLeadingSeparator("\U{1C}5");
  }

  lemma StripsLeadingSeparator(x: string)
    requires x == ['\U{1C}', '5']
    ensures Trim(Python, x) == ['5']
  {
    assert x[1..] == ['5'];
    assert TrimStart(Python, x) == ['5'];
    assert TrimEnd(Python, ['5']) == ['5'];
  }

  lemma IntRejectsLeadingSeparator(x: string)
    requires x == ['\U{1C}', '5']
    ensures PyInt(x) == None
  {
    assert SplitSign(Trim(PythonInt, x)) == (false, x) by {
      assert TrimStart(PythonInt, x) == x;
      assert TrimEnd(PythonInt, x) == x;
    }
    assert !IsDigit(x[0]);
  }

  /** Leading whitespace is skipped up to the first other character. */
  lemma {:induction false} TrimStartSkips(lang: Lang, ws: string, x: string)
    requires AllSpace(lang, ws)
    requires x == [] || !IsSpace(lang, x[0])
    ensures TrimStart(lang, ws + x) == x
  {
    if |ws| > 0 {
      assert (ws + x)[1..] == ws[1..] + x;
      TrimStartSkips(lang, ws[1..], x);
    }
  }

  /** Trailing whitespace is dropped back to the last other character. */
  lemma {:induction false} TrimEndSkips(lang: Lang, x: string, ws: string)
    requires AllSpace(lang, ws)
    requires x == [] || !IsSpace(lang, x[|x| - 1])
    ensures TrimEnd(lang, x + ws) == x
  {
    if |ws| > 0 {
      assert (x + ws)[..|x + ws| - 1] == x + ws[..|ws| - 1];
      TrimEndSkips(lang, x, ws[..|ws| - 1]);
    }
  }

  /** The digit run of a string ends where its digits end. */
  lemma {:induction false} DigitPrefixStops(d: string, rest: string)
    requires AllDigits(d)
    requires rest == [] || !IsDigit(rest[0])
    ensures DigitPrefix(d + rest) == d
  {
    if |d| > 0 {
      assert (d + rest)[1..] == d[1..] + rest;
      DigitPrefixStops(d[1..], rest);
    }
  }

  /** `parseInt` reads the count written after any leading whitespace, with
      or without a `-`, and ignores whatever follows the digits: `"12px"`
      gives 12 and `" -7"` gives -7. A `0` followed by `x` is the hexadecimal
      prefix instead, and a count above `Number.MAX_SAFE_INTEGER` would be
      rounded to a double, so both are excluded. */
  lemma {:induction false} JsParseIntReadsLeadingCount(ws: string, n: nat, rest: string)
    requires AllSpace(JavaScript, ws)
    requires rest == [] || !IsDigit(rest[0])
    requires n == 0 ==> rest == [] || (rest[0] != 'x' && rest[0] != 'X')
    requires n <= MaxSafeInteger
    ensures JsParseInt(ws + NatToString(n) + rest) == Some(n)
    ensures JsParseInt(ws + "-" + NatToString(n) + rest) == Some(-(n as int))
  {
    JsReadsPositive(ws, n, rest);
    JsReadsNegative(ws, n, rest);
  }

  lemma {:induction false} JsReadsPositive(ws: string, n: nat, rest: string)
    requires AllSpace(JavaScript, ws)
    requires rest == [] || !IsDigit(rest[0])
    requires n == 0 ==> rest == [] || (rest[0] != 'x' && rest[0] != 'X')
    ensures JsParseInt(ws + NatToString(n) + rest) == Some(n)
  {
    var d := NatToString(n);
    var x := d + rest;
    assert ws + d + rest == ws + x;
    assert x[0] == d[0];
    TrimStartSkips(JavaScript, ws, x);
    UnsignedDigits(x);
    DecimalNotHex(n, rest);
    DigitPrefixStops(d, rest);
    NatToStringValue(n);
  }

  lemma {:induction false} JsReadsNegative(ws: string, n: nat, rest: string)
    requires AllSpace(JavaScript, ws)
    requires rest == [] || !IsDigit(rest[0])
    requires n == 0 ==> rest == [] || (rest[0] != 'x' && rest[0] != 'X')
    ensures JsParseInt(ws + "-" + NatToString(n) + rest) == Some(-(n as int))
  {
    var d := NatToString(n);
    var x := "-" + (d + rest);
    Regroup(ws, "-", d, rest);
    TrimStartSkips(JavaScript, ws, x);
    NegativeSign(d + rest);
    DecimalNotHex(n, rest);
    DigitPrefixStops(d, rest);
    NatToStringValue(n);
  }

  /** A count's decimal rendering starts with `0` only for 0 itself, so it
      never opens the hexadecimal prefix unless an `x` follows that 0. */
  lemma DecimalNotHex(n: nat, rest: string)
    requires n == 0 ==> rest == [] || (rest[0] != 'x' && rest[0] != 'X')
    ensures !HexPrefixed(NatToString(n) + rest)
  {
    var d := NatToString(n);
    if |d| == 1 && d[0] == '0' {
      assert n == DigitsValue(d) by {
        NatToStringValue(n);
      }
      assert DigitsValue(d) == 0 by {
        assert d[..0] == [];
      }
    }
  }

  lemma Regroup(a: string, b: string, c: string, e: string)
    ensures a + b + c + e == a + (b + (c + e))
    ensures a + b + c + e == a + (b + c) + e
  {
  }

  /** A leading `-` is the sign and the rest is the body. */
  lemma {:induction false} NegativeSign(body: string)
    ensures SplitSign("-" + body) == (true, body)
  {
    assert ("-" + body)[1..] == body;
  }

  /** `int()` reads a count of at most `IntMaxStrDigits` digits with
      whitespace on either side, with or without a `-`. */
  lemma {:induction false} PyIntReadsPaddedCount(ws: string, n: nat, ws2: string)
    requires AllSpace(PythonInt, ws) && AllSpace(PythonInt, ws2)
    requires |NatToString(n)| <= IntMaxStrDigits
    ensures PyInt(ws + NatToString(n) + ws2) == Some(n)
    ensures PyInt(ws + "-" + NatToString(n) + ws2) == Some(-(n as int))
  {
    PyReadsPositive(ws, n, ws2);
    PyReadsNegative(ws, n, ws2);
  }

  lemma {:induction false} PyReadsPositive(ws: string, n: nat, ws2: string)
    requires AllSpace(PythonInt, ws) && AllSpace(PythonInt, ws2)
    requires |NatToString(n)| <= IntMaxStrDigits
    ensures PyInt(ws + NatToString(n) + ws2) == Some(n)
  {
    var d := NatToString(n);
    NatToStringValue(n);
    DigitsAreGroups(d);
    UnsignedDigits(d);
    PyReadsPadded(ws, d, ws2, false, d);
  }

  lemma {:induction false} PyReadsNegative(ws: string, n: nat, ws2: string)
    requires AllSpace(PythonInt, ws) && AllSpace(PythonInt, ws2)
    requires |NatToString(n)| <= IntMaxStrDigits
    ensures PyInt(ws + "-" + NatToString(n) + ws2) == Some(-(n as int))
  {
    var d := NatToString(n);
    NatToStringValue(n);
    DigitsAreGroups(d);
    var x := "-" + d;
    Regroup(ws, "-", d, ws2);
    assert x[|x| - 1] == d[|d| - 1];
    NegativeSign(d);
    PyReadsPadded(ws, x, ws2, true, d);
    assert Signed(true, DigitsValue(d)) == -(n as int);
  }

  /** `int()` on a signed body with whitespace around it. */
  lemma {:induction false} PyReadsPadded(ws: string, x: string, ws2: string, negative: bool, d: string)
    requires AllSpace(PythonInt, ws) && AllSpace(PythonInt, ws2)
    requires |x| > 0 && !IsSpace(PythonInt, x[0]) && !IsSpace(PythonInt, x[|x| - 1])
    requires SplitSign(x) == (negative, d) && PyDigitGroups(d) && DropUnderscores(d) == d
    requires |d| <= IntMaxStrDigits
    ensures AllDigits(d) && PyInt(ws + x + ws2) == Some(Signed(negative, DigitsValue(d)))
  {
    PyTrimsPadding(ws, x, ws2);
  }

  lemma {:induction false} PyTrimsPadding(ws: string, x: string, ws2: string)
    requires AllSpace(PythonInt, ws) && AllSpace(PythonInt, ws2)
    requires |x| > 0 && !IsSpace(PythonInt, x[0]) && !IsSpace(PythonInt, x[|x| - 1])
    ensures Trim(PythonInt, ws + x + ws2) == x
  {
    assert ws + x + ws2 == ws + (x + ws2);
    TrimStartSkips(PythonInt, ws, x + ws2);
    TrimEndSkips(PythonInt, x, ws2);
  }

  /** The decimal rendering of a count is read back as that count by the
      browser's `parseInt` up to `Number.MAX_SAFE_INTEGER`, and by the
      server's `int()` exactly when it has at most `IntMaxStrDigits` digits. */
  lemma {:induction false} DecimalRoundTrip(n: nat)
    ensures n <= MaxSafeInteger ==> JsParseInt(NatToString(n)) == Some(n)
    ensures PyInt(NatToString(n)) == if |NatToString(n)| <= IntMaxStrDigits then Some(n) else None
  {
    JsReadsDecimal(n);
    PyReadsDecimal(n);
  }

  lemma {:induction false} JsReadsDecimal(n: nat)
    ensures JsParseInt(NatToString(n)) == Some(n)
  {
    var d := NatToString(n);
    assert [] + d + [] == d;
    JsReadsPositive([], n, []);
  }

  lemma {:induction false} PyReadsDecimal(n: nat)
    ensures PyInt(NatToString(n)) == if |NatToString(n)| <= IntMaxStrDigits then Some(n) else None
  {
    NatToStringValue(n);
    PyReadsDigits(NatToString(n));
  }

  lemma {:induction false} PyReadsDigits(s: string)
    requires |s| > 0 && AllDigits(s)
    ensures PyInt(s) == if |s| <= IntMaxStrDigits then Some(DigitsValue(s)) else None
  {
    assert SplitSign(Trim(PythonInt, s)) == (false, s) by {
      TrimDigits(s);
      UnsignedDigits(s);
    }
    DigitsAreGroups(s);
  }

  lemma UnsignedDigits(s: string)
    requires |s| > 0 && IsDigit(s[0])
    ensures SplitSign(s) == (false, s)
  {
  }

  lemma DigitsAreGroups(s: string)
    requires |s| > 0 && AllDigits(s)
    ensures PyDigitGroups(s) && DropUnderscores(s) == s
  {
  }

  lemma {:induction false} TrimDigits(s: string)
    requires |s| > 0 && AllDigits(s)
    ensures Trim(PythonInt, s) == s
  {
    DigitIsNotSpace(PythonInt, s[0]);
    DigitIsNotSpace(PythonInt, s[|s| - 1]);
    assert [] + s == s && s + [] == s;
    TrimStartSkips(PythonInt, [], s);
    TrimEndSkips(PythonInt, s, []);
  }

  lemma DigitIsNotSpace(lang: Lang, c: char)
    requires IsDigit(c)
    ensures !IsSpace(lang, c)
  {
  }

  lemma {:induction false} AllDigitsPrefix(s: string)
    requires AllDigits(s)
    ensures DigitPrefix(s) == s
  {
    if |s| > 0 {
      AllDigitsPrefix(s[1..]);
    }
  }
}

=== FILE: topk.dfy ===
/** Choosing the `k` best-scored positions of a score vector and listing them
    in document order: the selection `argsort()[-k:]` followed by `sorted`. */
module TopK {
  import opened Wrappers

  /** Strictly increasing, hence without repeats. */
  predicate Ascending(s: seq<nat>) {
    forall a, b :: 0 <= a < b < |s| ==> s[a] < s[b]
  }

  /** The specification: `idx` lists `k` distinct positions of `scores` in
      ascending order, and no position left out scores above one kept.
      On ties any such set qualifies, as `argsort` is not stable. */
  predicate IsTopK(scores: seq<real>, k: nat, idx: seq<nat>) {
    && |idx| == k
    && (forall a :: 0 <= a < |idx| ==> idx[a] < |scores|)
    && Ascending(idx)
    && (forall a, j :: 0 <= a < |idx| && 0 <= j < |scores| && j !in idx ==> scores[idx[a]] >= scores[j])
  }

  /** Number of marked positions. */
  function Count(mask: seq<bool>): (c: nat)
    ensures c <= |mask|
  {
    if |mask| == 0 then 0
    else Count(mask[..|mask| - 1]) + (if mask[|mask| - 1] then 1 else 0)
  }

  /** Every marked position scores at least as much as every unmarked one. */
  predicate Dominates(scores: seq<real>, mask: seq<bool>)
    requires |mask| == |scores|
  {
    forall i, j :: 0 <= i < |mask| && 0 <= j < |mask| && mask[i] && !mask[j] ==> scores[i] >= scores[j]
  }

  /** Among the first `n` positions, the unmarked one with the highest score
      (the earliest on a tie), or `None` when all of them are marked. */
  function BestUnmarked(scores: seq<real>, mask: seq<bool>, n: nat): (b: Option<nat>)
    requires |mask| == |scores| && n <= |scores|
    ensures b.None? <==> forall j :: 0 <= j < n ==> mask[j]
    ensures b.Some? ==> b.value < n && !mask[b.value]
    ensures b.Some? ==> forall j :: 0 <= j < n && !mask[j] ==> scores[j] <= scores[b.value]
  {
    if n == 0 then None
    else
      var b := BestUnmarked(scores, mask, n - 1);
      if mask[n - 1] then b
      else if b.None? || scores[b.value] < scores[n - 1] then Some(n - 1)
      else b
  }

  /** Marks `k` more positions, each time the best unmarked one. */
  function Select(scores: seq<real>, mask: seq<bool>, k: nat): (m: seq<bool>)
    requires |mask| == |scores| && Dominates(scores, mask)
    requires Count(mask) + k <= |scores|
    ensures |m| == |scores| && Dominates(scores, m)
    ensures Count(m) == Count(mask) + k
    ensures forall i :: 0 <= i < |mask| && mask[i] ==> m[i]
    decreases k
  {
    if k == 0 then mask
    else
      var best := BestUnmarked(scores, mask, |scores|);
      assert best.Some? by {
        if best.None? {
          CountAllMarked(mask);
        }
      }
      var b := best.value;
      var next := mask[b := true];
      CountMark(mask, b);
      Select(scores, next, k - 1)
  }

  /** The marked positions, in ascending order. */
  function Positions(mask: seq<bool>): (p: seq<nat>)
    ensures |p| == Count(mask)
    ensures forall a :: 0 <= a < |p| ==> p[a] < |mask| && mask[p[a]]
    ensures forall a, b :: 0 <= a < b < |p| ==> p[a] < p[b]
    ensures forall i :: 0 <= i < |mask| && mask[i] ==> i in p
  {
    if |mask| == 0 then []
    else
      var last := |mask| - 1;
      var p := Positions(mask[..last]);
      if mask[last] then p + [last] else p
  }

  /** The `k` best positions in ascending order. Ties go to the earliest
      position here; the contract promises only `IsTopK`. */
  function TopIndices(scores: seq<real>, k: nat): (idx: seq<nat>)
    requires k <= |scores|
    ensures IsTopK(scores, k, idx)
  {
    var none := seq(|scores|, _ => false);
    CountNone(none);
    var m := Select(scores, none, k);
    Positions(m)
  }

  lemma {:induction false} CountMark(mask: seq<bool>, i: nat)
    requires i < |mask| && !mask[i]
    ensures Count(mask[i := true]) == Count(mask) + 1
  {
    var last := |mask| - 1;
    var m := mask[i := true];
    assert m[..last] == if i == last then mask[..last] else mask[..last][i := true];
    if i != last {
      CountMark(mask[..last], i);
    }
  }

  lemma {:induction false} CountAllMarked(mask: seq<bool>)
    requires forall i :: 0 <= i < |mask| ==> mask[i]
    ensures Count(mask) == |mask|
  {
    if |mask| > 0 {
      CountAllMarked(mask[..|mask| - 1]);
    }
  }

  lemma {:induction false} CountNone(mask: seq<bool>)
    requires forall i :: 0 <= i < |mask| ==> !mask[i]
    ensures Count(mask) == 0
  {
    if |mask| > 0 {
      CountNone(mask[..|mask| - 1]);
    }
  }

  // ------------------------------------------------------------ uniqueness

  /** Without ties the choice is forced: any two valid selections agree, so
      the tie-break of an implementation is visible only on equal scores. */
  lemma UniqueWithoutTies(scores: seq<real>, k: nat, x: seq<nat>, y: seq<nat>)
    requires forall i, j :: 0 <= i < j < |scores| ==> scores[i] != scores[j]
    requires IsTopK(scores, k, x) && IsTopK(scores, k, y)
    ensures x == y
  {
    var ex, ey := Elems(x), Elems(y);
    AscendingCard(x);
    AscendingCard(y);
    if ex != ey {
      if ey <= ex {
        ProperSubsetSmaller(ey, ex);
        assert false;
      }
      var j :| j in ey && j !in ex;
      if ex <= ey {
        ProperSubsetSmaller(ex, ey);
        assert false;
      }
      assert false;
    }
    SameSetAscending(x, y);
  }

  function Elems(s: seq<nat>): set<nat> {
    set a | a in s
  }

  lemma {:induction false} AscendingCard(s: seq<nat>)
    requires Ascending(s)
    ensures |Elems(s)| == |s|
  {
    if |s| > 0 {
      var t := s[1..];
      AscendingCard(t);
      assert Elems(s) == {s[0]} + Elems(t);
      assert s[0] !in Elems(t);
    }
  }

  lemma ProperSubsetSmaller(a: set<nat>, b: set<nat>)
    requires a <= b && a != b
    ensures |a| < |b|
  {
    var e :| e in b && e !in a;
    assert b == a + (b - a);
    assert e in b - a;
  }

  lemma {:induction false} SameSetAscending(x: seq<nat>, y: seq<nat>)
    requires Ascending(x) && Ascending(y) && |x| == |y|
    requires Elems(x) == Elems(y)
    ensures x == y
  {
    if |x| > 0 {
      assert x[0] in Elems(x) && y[0] in Elems(y);
      assert x[0] in y && y[0] in x;
      if x[0] != y[0] {
        assert false;
      }
      assert Elems(x[1..]) == Elems(x) - {x[0]} by {
        assert x == [x[0]] + x[1..];
        assert x[0] !in x[1..];
      }
      assert Elems(y[1..]) == Elems(y) - {y[0]} by {
        assert y == [y[0]] + y[1..];
        assert y[0] !in y[1..];
      }
      SameSetAscending(x[1..], y[1..]);
      assert x == [x[0]] + x[1..];
      assert y == [y[0]] + y[1..];
    }
  }
}

=== FILE: wrappers.dfy ===
/** Failure-carrying datatypes shared by every module of the model. */
module Wrappers {

  datatype Option<+T> = None | Some(value: T)

  /** A computation that either produced a value or raised an exception. */
  datatype Result<+R, +E> = Success(value: R) | Failure(error: E)
}
